=== FILE: README.md ===
# Guided travel hearing and chat endpoint — a Dafny model

TravelMate's guided "hearing" is a fixed questionnaire. It asks for budget,
group, duration, transportation, interests and departure point, then shows a
confirmation summary and hands the collected preferences over. The chat
endpoint validates a message, frames one prompt for the completion service
and maps failures to fixed user-facing messages. This project models both
as immutable data and pure functions and proves properties of the model.

Modules, one per file:

- `Wrappers` (`wrappers.dfy`): `Option`, `values[0]` as `First`, and string truthiness.
- `Numbers` (`numbers.dfy`): the part of `parseInt` the app relies on (leading decimal digits, else NaN) and decimal rendering of a number.
- `Lists` (`lists.dfy`): `indexOf`, `filter(v => v !== x)`, `join` and `map`.
- `HearingTypes` (`hearing_types.dfy`): steps, options, preferences and the session. These are rebuilt from how the code uses them, because the shared type file does not declare them.
- `HearingFlow` (`hearing_flow.dfy`): the step catalog, `getNextStep` and `isStepCompleted`, plus facts proved about the concrete catalog.
- `InteractiveHearing` (`interactive_hearing.dfy`): the initial session, the preference accumulator `handleAnswer` and the advance `handleNext`, as a state machine over sessions.
- `HearingStepView` (`hearing_step.dfy`): the step component's option click, the next/skip guard, the three label tables and the confirmation summary.
- `Wizard` (`wizard.dfy`): the two components composed as the page renders them. This is where the finding below lives.
- `ChatRoute` (`chat_route.dfy`): the chat POST handler with the completion service as a function parameter.

JavaScript semantics that matter are written out:

- `undefined` is `None`.
- The empty string, `0` and `NaN` are falsy wherever the code tests truthiness (`x || null`, `labels[t] || t`, `preferences.budget && …`).
- `parseInt` of a missing value is `NaN`.

Two facts about the flow shape the model:

- Confirming never moves the session to `result`: it only sets `completed` and leaves `currentStep` on `confirmation`. The `result` step is in the catalog but is never shown.
- The hearing ends by passing the preferences to `onComplete`; what happens to them after that is outside this model.

## Model

| member | source | states |
|---|---|---|
| Wrappers.First | src/components/chat/interactive-hearing.tsx:36 | `values[0]` is undefined exactly for an empty list and is the head otherwise |
| Numbers.ParseInt | src/components/chat/interactive-hearing.tsx:36 | `parseInt` is NaN exactly when the text is missing, empty or does not start with a digit |
| Numbers.ParseIntOfDigitRun | src/components/chat/interactive-hearing.tsx:36 | `parseInt` of a non-empty digit run followed by nothing or a non-digit is the decimal value of that run, whatever follows |
| Numbers.LeadingDigits | src/components/chat/interactive-hearing.tsx:36 | the digit run `parseInt` reads is a prefix of the text, all digits, and followed by a non-digit or the end |
| Numbers.NatToString | src/components/chat/hearing-step.tsx:76 | a number's decimal rendering is non-empty, all digits, and has no leading zero except for 0 itself |
| Numbers.DecimalValueOfRendering | src/components/chat/hearing-step.tsx:76 | reading the rendering of n as decimal gives n back |
| Numbers.ParseIntOfRendering | src/components/chat/hearing-step.tsx:76 | `parseInt` of a rendered number followed by a non-digit suffix (such as 円 or 日間) gives the number back |
| Lists.IndexOf | src/components/chat/interactive-hearing.tsx:27 | `indexOf` returns the first position holding the value |
| Lists.RemoveAll | src/components/chat/hearing-step.tsx:35 | the filter drops every occurrence of the value and keeps every other element with its multiplicity; without the value the list is unchanged; a one-element list is kept or emptied |
| Lists.RemoveAllAppend | src/components/chat/hearing-step.tsx:35 | filtering a concatenation filters each part and keeps them in order, so with the one-element case the kept values stay in their original order |
| Lists.Map | src/components/chat/hearing-step.tsx:100 | `map` keeps the length and puts the image of the i-th element at position i |
| Lists.Join | src/components/chat/hearing-step.tsx:100 | joining no elements gives the empty string and one element gives that element |
| Lists.JoinAppend | src/components/chat/hearing-step.tsx:100 | joining one more element appends the separator and the element, so two or more elements are separated by `, ` in order |
| HearingFlow.FindFrom | src/data/hearing-flow.ts:132 | `find` returns the first option with the selected value, or nothing when no option has it |
| HearingFlow.NextOf | src/data/hearing-flow.ts:130-139 | a truthy `nextStep` on the first option matching a truthy selection wins; otherwise the step's truthy default; otherwise null; never an empty id |
| HearingFlow.GetNextStep | src/data/hearing-flow.ts:126-128 | an id that is not in the catalog gives null, and any id returned is a catalog key |
| HearingFlow.PathIdsDistinct | src/data/hearing-flow.ts:3-124 | the nine catalog ids are pairwise distinct |
| HearingFlow.CatalogKeys | src/data/hearing-flow.ts:3-124 | the catalog keys are exactly the nine ids in declaration order, each mapped to its definition |
| HearingFlow.StepDefinitions | src/data/hearing-flow.ts:3-124 | each step's id is its key, every target is a key, option branches agree with the default, the default is the next declared step, and `result` has none |
| HearingFlow.CatalogShape | src/data/hearing-flow.ts:3-124 | the catalog is keyed by id, closed under every step and option target, every default successor is the next id on the declared path, and `result` has no successor |
| HearingFlow.NextOfIgnoresSelection | src/data/hearing-flow.ts:130-139 | when every option branch equals its step's default, the selection never changes the successor |
| HearingFlow.SelectionNeverBranches | src/data/hearing-flow.ts:9-107 | for every step and every selected value, `getNextStep(s, v)` equals `getNextStep(s)` |
| HearingFlow.ResultIsTerminal | src/data/hearing-flow.ts:118-139 | `getNextStep('result', v)` is null whatever v is |
| HearingFlow.Rank | src/data/hearing-flow.ts:3-124 | every catalog id has a position on the declared path |
| HearingFlow.SuccessorRank | src/data/hearing-flow.ts:3-124 | the default successor of the k-th declared step is the (k+1)-th step, and the last step has none |
| HearingFlow.Walk | src/data/hearing-flow.ts:126-139 | following default successors from a step terminates and starts at that step |
| HearingFlow.WalkStep | src/data/hearing-flow.ts:4-123 | the walk from the k-th declared step is that step followed by the walk from the next, and stops at the last |
| HearingFlow.WalkSuffix | src/data/hearing-flow.ts:4-123 | following default successors from the k-th step visits exactly the rest of the declared path |
| HearingFlow.WalkFromWelcome | src/data/hearing-flow.ts:4-123 | from `welcome` the walk visits welcome, budget, group_size, duration, transportation, interests, departure_location, confirmation and result, each once, and ends at result |
| HearingFlow.IsStepCompleted | src/data/hearing-flow.ts:142-163 | always true for welcome, interests, departure_location and confirmation; false off the catalog and for result; for budget, duration and transportation true iff the field is defined; for group_size true iff groupSize or groupType is defined |
| InteractiveHearing.InitialSession | src/components/chat/interactive-hearing.tsx:15-22 | a new session is on welcome with empty preferences, no completed steps and not completed, and lies on the reachable path |
| InteractiveHearing.GroupSizeFor | src/components/chat/interactive-hearing.tsx:39-44 | solo, couple, family, friends and large_group set 1, 2, 4, 5 and 8; any other token leaves the headcount as it was |
| InteractiveHearing.ApplyAnswer | src/components/chat/interactive-hearing.tsx:29-58 | an answer writes only the fields its step owns: the budget sentinel or parse, group type and headcount, '5+' as 5 or the parse, transportation and departure as the first value, interests as the whole list; welcome, confirmation and unknown ids change nothing |
| InteractiveHearing.HandleAnswer | src/components/chat/interactive-hearing.tsx:30-64 | answering changes only the preferences, never the current step, the completed steps or the completed flag |
| InteractiveHearing.HandleNext | src/components/chat/interactive-hearing.tsx:67-89 | on confirmation the session is marked completed, starts processing and hands its preferences over; elsewhere it moves to the default successor and records the step left, keeping the session id, start time, preferences and completed flag; with no successor or off the catalog nothing changes |
| InteractiveHearing.NextKeepsReachable | src/components/chat/interactive-hearing.tsx:67-89 | advancing keeps the completed steps a prefix of the declared path with the current step next |
| InteractiveHearing.RunKeepsReachable | src/components/chat/interactive-hearing.tsx:29-89 | any sequence of answers and advances keeps a session on the declared path |
| InteractiveHearing.StepsVisitedOnce | src/components/chat/interactive-hearing.tsx:67-89 | from a fresh session no step is recorded twice, the current step was never left, result is never entered, and a completed session has left exactly the seven steps before confirmation |
| InteractiveHearing.Nexts | src/components/chat/interactive-hearing.tsx:67 | n advance actions in a row |
| InteractiveHearing.NextBeforeConfirmation | src/components/chat/interactive-hearing.tsx:67-89 | one advance before confirmation keeps the session reachable, completes one more step, does not finish and leaves the preferences alone |
| InteractiveHearing.RunNexts | src/components/chat/interactive-hearing.tsx:81-88 | n advances below confirmation move n steps along the path and leave the preferences alone |
| InteractiveHearing.AdvancingCompletesHearing | src/components/chat/interactive-hearing.tsx:71-88 | seven advances reach confirmation; the eighth completes the session without moving it and hands over the preferences |
| InteractiveHearing.AnswerCompletesStep | src/components/chat/interactive-hearing.tsx:34-57 | answering any catalog option of a step makes that step count as completed |
| InteractiveHearing.FivePlusAgreesWithParseInt | src/components/chat/interactive-hearing.tsx:47 | the '5+' special case gives the same 5 that `parseInt('5+')` would |
| InteractiveHearing.DurationOptionsParse | src/components/chat/interactive-hearing.tsx:46-48 | the five duration options give 1 to 5 days in option order |
| InteractiveHearing.BudgetOptionReads | src/components/chat/interactive-hearing.tsx:35-37 | a budget option made of a digit string and three zeros records a thousand times that string's value |
| InteractiveHearing.TensOfThousands | src/components/chat/interactive-hearing.tsx:35-37 | the option of a digit followed by four zeros records that digit's tens of thousands of yen |
| InteractiveHearing.TwoDigitLead | src/components/chat/interactive-hearing.tsx:35-37 | a digit followed by 0 is a digit string worth ten times the digit |
| InteractiveHearing.BudgetOptionsParse | src/components/chat/interactive-hearing.tsx:35-37 | the budget options give 5000, 10000, 20000 and 30000 yen, and 'custom' gives the sentinel |
| InteractiveHearing.ThousandsParse | src/components/chat/interactive-hearing.tsx:36 | a digit string followed by three zeros parses as a thousand times its value |
| InteractiveHearing.ProgressIndex | src/components/chat/interactive-hearing.tsx:27 | the index is one past the first position of the current step in the catalog key order, and 0 for an id off the catalog |
| InteractiveHearing.ProgressWithinTotal | src/components/chat/interactive-hearing.tsx:26-27 | in a reachable session the progress index is the number of completed steps plus one and lies between 1 and the step count without result |
| HearingStepView.Toggle | src/components/chat/hearing-step.tsx:33-38 | a selected value is filtered out (every occurrence, the rest in order); an unselected value is appended at the end; membership of the value flips and other membership is kept |
| HearingStepView.RemoveAppended | src/components/chat/hearing-step.tsx:35-37 | filtering out a value that was just appended to a list without it gives the list back |
| HearingStepView.ToggleTwiceRestores | src/components/chat/hearing-step.tsx:33-38 | toggling an absent value twice restores the selection |
| HearingStepView.RemoveAllKeepsNoDuplicates | src/components/chat/hearing-step.tsx:35 | filtering keeps a duplicate-free list duplicate-free |
| HearingStepView.ToggleKeepsNoDuplicates | src/components/chat/hearing-step.tsx:33-38 | toggling keeps a duplicate-free selection duplicate-free |
| HearingStepView.SelectOption | src/components/chat/hearing-step.tsx:27-52 | a disabled click does nothing and reports nothing; on interests it toggles and does not advance; elsewhere the selection is exactly the clicked value and it auto-advances; the reported answer is the new selection |
| HearingStepView.NextAdvances | src/components/chat/hearing-step.tsx:54-58 | the guard of the explicit next/skip action: the step is interests or is not required (its consequence on the catalog is the next row) |
| HearingStepView.ButtonsOnCatalog | src/components/chat/hearing-step.tsx:147-157 | on the catalog, "next" is offered iff the step is interests and something was chosen, and "skip" iff the step is interests, departure_location or result and nothing was chosen yet |
| HearingStepView.NextAdvancesOnCatalog | src/components/chat/hearing-step.tsx:54-58 | the next/skip guard lets the action through exactly on interests, departure_location and result |
| HearingStepView.LabelOr | src/components/chat/hearing-step.tsx:172 | a token with a non-empty label gets its label; any other token is returned unchanged |
| HearingStepView.GroupTypeLabel | src/components/chat/hearing-step.tsx:164-173 | a group type in the table gets its label and any other token is returned unchanged |
| HearingStepView.TransportationLabel | src/components/chat/hearing-step.tsx:175-185 | a transportation token in the table gets its label and any other token is returned unchanged |
| HearingStepView.InterestLabel | src/components/chat/hearing-step.tsx:187-199 | an interest in the table gets its label and any other token is returned unchanged |
| HearingStepView.LabelsAgreeWithOptions | src/components/chat/hearing-step.tsx:164-199 | the group and interest tables repeat the catalog's option labels; the transportation table does too except for car, shown as 車 |
| HearingStepView.GroupLabelsAgree | src/components/chat/hearing-step.tsx:164-173 | every group-size option's value labels to that option's label |
| HearingStepView.InterestLabelsAgree | src/components/chat/hearing-step.tsx:187-199 | every interests option's value labels to that option's label |
| HearingStepView.TransportationLabelsAgree | src/components/chat/hearing-step.tsx:175-185 | every transportation option but `car` labels to its option label; `car` is shortened to 車 |
| HearingStepView.UnknownTokensPassThrough | src/components/chat/hearing-step.tsx:164-199 | a token that is no option value of its step is shown as itself by each of the three tables |
| HearingStepView.UnknownGroupToken | src/components/chat/hearing-step.tsx:164-173 | a token that is no group-size option value is shown as itself |
| HearingStepView.UnknownTransportationToken | src/components/chat/hearing-step.tsx:175-185 | a token that is no transportation option value is shown as itself |
| HearingStepView.UnknownInterestToken | src/components/chat/hearing-step.tsx:187-199 | a token that is no interests option value is shown as itself |
| HearingStepView.Summary | src/components/chat/hearing-step.tsx:73-108 | the summary has at most six rows and none for empty preferences |
| HearingStepView.HeadingsDistinct | src/components/chat/hearing-step.tsx:73-108 | the six row headings are distinct |
| HearingStepView.RowsOfConcat | src/components/chat/hearing-step.tsx:73-108 | a row with a heading is in two concatenated row lists iff it is in one of them |
| HearingStepView.RowsOfRowIf | src/components/chat/hearing-step.tsx:73-108 | a conditional row is present iff its condition holds |
| HearingStepView.SummaryRowsSplit | src/components/chat/hearing-step.tsx:73-108 | a question about the summary splits into one question per row |
| HearingStepView.SummaryRows | src/components/chat/hearing-step.tsx:73-108 | each row is present iff its field is truthy; interests needs a non-empty list |
| HearingStepView.CustomBudgetRow | src/components/chat/hearing-step.tsx:76 | the custom budget is shown as その他 |
| HearingStepView.AmountBudgetRow | src/components/chat/hearing-step.tsx:76 | a positive amount n is shown as n円, which parses back to n |
| HearingStepView.GroupRowText | src/components/chat/hearing-step.tsx:79-84 | a truthy group type has a row, and every group row reads the type's label (or the token itself when the table has none) |
| HearingStepView.TransportationRowText | src/components/chat/hearing-step.tsx:91-96 | a truthy transportation has a row, and every transportation row reads its label (or the token itself) |
| HearingStepView.InterestsRowText | src/components/chat/hearing-step.tsx:97-102 | a non-empty interests list has a row that reads the labels of the items joined by ", " in order: one item reads as its label, and each further item adds ", " and its label |
| HearingStepView.InterestsTextShape | src/components/chat/hearing-step.tsx:100 | the interests cell of one item is its label, and of more items the cell of all but the last, ", " and the last item's label |
| HearingStepView.DepartureRowText | src/components/chat/hearing-step.tsx:103-108 | a truthy departure point has a row that reads the point exactly as entered |
| HearingStepView.OnlyOwnRowReads | src/components/chat/hearing-step.tsx:73-108 | under one heading the summary reads a text exactly when that heading's own row does |
| HearingStepView.OtherRowReads | src/components/chat/hearing-step.tsx:73-108 | a row under another heading says nothing about a heading |
| HearingStepView.DurationRowText | src/components/chat/hearing-step.tsx:85-90 | one day is shown as 日帰り and n days as n日間, which parses back to n |
| HearingStepView.EmptyInterestsOmitted | src/components/chat/hearing-step.tsx:97-102 | an empty interests list leaves out the interests row |
| Wizard.ShownStep | src/components/chat/interactive-hearing.tsx:91-122 | nothing is shown while processing or when the current step is off the declared path; otherwise the step shown is the current one |
| Wizard.Act | src/components/chat/interactive-hearing.tsx:91-144 | an action while nothing is shown changes nothing; every action keeps the session id and start time; the confirmation button exists only on the confirmation step |
| Wizard.ConfirmationKind | src/data/hearing-flow.ts:110-116 | only the confirmation step has the confirmation type |
| Wizard.OnlyInterestsWritesInterests | src/components/chat/interactive-hearing.tsx:34-58 | no answer but the interests answer writes the interests preference |
| Wizard.AdvanceMoves | src/components/chat/interactive-hearing.tsx:81-88 | advancing from a reachable step other than confirmation changes the step |
| Wizard.ToggleKeepsInterestValues | src/components/chat/hearing-step.tsx:33-38 | toggling interest values keeps a selection of interest values |
| Wizard.ActKeepsConsistent | src/components/chat/interactive-hearing.tsx:138-144 | with the step selection reset on each step change, any action keeps the session on the path and the interests preference well formed |
| Wizard.RunKeepsConsistent | src/components/chat/interactive-hearing.tsx:138-144 | the same holds for any sequence of actions |
| Wizard.InterestsHoldOnlyInterestOptions | src/components/chat/interactive-hearing.tsx:138-144 | with the corrected reset, whatever is clicked, interests lists only interest options, each once, and the session stays on the path |
| Wizard.PickAdvances | src/components/chat/hearing-step.tsx:39-51 | a click on a single-select step records the clicked option's value as that step's answer, moves one step along the path and leaves interests alone |
| Wizard.ConfirmCompletes | src/components/chat/interactive-hearing.tsx:71-79 | the confirmation button on the confirmation step starts processing and marks the session completed, staying on confirmation with the preferences and completed steps unchanged |
| Wizard.PickOnInterests | src/components/chat/hearing-step.tsx:33-46 | a click on interests stores the toggled selection as the interests preference |
| Wizard.OptionsBeforeInterests | src/data/hearing-flow.ts:4-75 | every step before interests is a single-select step with options |
| Wizard.RunFirstPicks | src/components/chat/hearing-step.tsx:39-51 | first-option clicks from a step before interests walk the path one step per click |
| Wizard.FirstPickStep | src/components/chat/hearing-step.tsx:39-51 | one first-option click before interests completes one more step, keeps the session reachable and interests untouched, and leaves the picked value selected as written or a fresh view when reset |
| Wizard.FirstPicksUnfold | src/components/chat/hearing-step.tsx:39-51 | a run of first-option clicks is one click followed by the rest |
| Wizard.FirstPicksView | src/components/chat/interactive-hearing.tsx:138-144 | as written, after first-option clicks the step component still shows the value picked last, selected and answered |
| Wizard.PicksFromStart | src/components/chat/hearing-step.tsx:39-51 | n first-option clicks from a fresh session reach the n-th step; four reach transportation |
| Wizard.TransportationAndInterestsEntries | src/data/hearing-flow.ts:61-93 | transportation and interests are the fifth and sixth declared steps |
| Wizard.TransportationIsNoInterest | src/data/hearing-flow.ts:61-93 | no transportation value is an interest value |
| Wizard.PickTransportation | src/components/chat/hearing-step.tsx:39-51 | a transportation click lands on interests, still showing the clicked value as written and an empty selection when reset |
| Wizard.StaleSelectionReachesInterests | src/components/chat/interactive-hearing.tsx:138-144 | as written, clicking transportation option i and then interest j records [transportation value, interest value] as the interests answer, which is not well formed |
| Wizard.FreshSelectionOnInterests | src/components/chat/hearing-step.tsx:24-46 | with the selection reset per step, the same two clicks record just the interest value |
| Wizard.LeaveInterests | src/components/chat/hearing-step.tsx:147-157 | a shown "next" or "skip" on interests lands on departure_location |
| Wizard.DepartureEntry | src/data/hearing-flow.ts:95-108 | departure_location is an optional question step whose successor is confirmation |
| Wizard.DepartureControls | src/components/chat/hearing-step.tsx:147-157 | on departure_location "next" does nothing, and "skip" is shown, and moves to confirmation, exactly when nothing was chosen on the step |
| Wizard.StaleAnswerHidesDepartureSkip | src/components/chat/hearing-step.tsx:153-157 | as written, after a transportation pick interests shows "next" but not "skip", and on departure_location neither "skip" nor "next" does anything |
| Wizard.FreshViewSkipsOptionalSteps | src/components/chat/hearing-step.tsx:153-157 | with the selection reset per step, interests and departure_location can both be skipped, reaching confirmation |
| ChatRoute.Prefix | src/app/api/chat/route.ts:71 | role user gets the user label and any other role the assistant label |
| ChatRoute.BuildConversation | src/app/api/chat/route.ts:66-76 | the history built turn by turn is the system prompt, a blank line, each prior turn as label + content + blank line in order, the user label with the message, a blank line and the open assistant label |
| ChatRoute.ConversationPrompt | src/app/api/chat/route.ts:66-76 | the reference prompt: system prompt, blank line, the rendered prior turns, the labelled new message and the open assistant cue; `BuildConversation` is proved equal to it |
| ChatRoute.PromptFraming | src/app/api/chat/route.ts:67-76 | the prompt starts with the system prompt and a blank line, ends with the open assistant label, and its length is the sum of its parts |
| ChatRoute.TranscriptSnoc | src/app/api/chat/route.ts:70-73 | one more turn appends exactly its rendered line to the transcript |
| ChatRoute.HistoryGrows | src/app/api/chat/route.ts:70-73 | appending the next turn's line to the history so far gives the history of one more turn |
| ChatRoute.HistoryCloses | src/app/api/chat/route.ts:75-76 | once every turn is in, appending the user label, the message and the open assistant label gives the full prompt |
| ChatRoute.TranscriptAppend | src/app/api/chat/route.ts:70-73 | the rendering of concatenated turn lists is the concatenation of their renderings |
| ChatRoute.PromptWithoutTurns | src/app/api/chat/route.ts:67-76 | with no prior turns the prompt is exactly sys + "\n\nユーザー: " + message + "\n\nアシスタント: " |
| ChatRoute.PromptWithOneMoreTurn | src/app/api/chat/route.ts:70-76 | one more prior turn inserts its label, content and blank line just before the new message |
| ChatRoute.Contains | src/app/api/chat/route.ts:109-113 | `includes` is true iff the text occurs at some position |
| ChatRoute.MapError | src/app/api/chat/route.ts:104-117 | the message is always one of four fixed texts, chosen in the order quota, rate limit, API key; anything else, and a failure without a string message, gets the generic text |
| ChatRoute.HandleWith | src/app/api/chat/route.ts:15-123 | for any system prompt: status is 200, 400 or 500; 400 iff the message is missing or empty, with the fixed text; 500 always carries a fixed message, and an unreadable body or a failed service call answers with `MapError` of the thrown message; 200 iff the service returns non-empty text for the prompt built with that system prompt, and the text is sent verbatim with model gemini-1.5-flash |
| ChatRoute.Handle | src/app/api/chat/route.ts:15-123 | with the fixed travel-consultation prompt: status is 200, 400 or 500; 400 iff the message is missing or empty, with the fixed text; 500 always carries a fixed message |
| ChatRoute.Outbound | src/app/api/chat/route.ts:79-87 | the completion call carries the model gemini-1.5-flash, the built prompt, at most 1000 output tokens, temperature 0.7, topP 0.8 and topK 40 |
| ChatRoute.RejectionIgnoresService | src/app/api/chat/route.ts:19-24 | for any system prompt, a missing or empty message gets the same 400 answer whatever the service would do |
| ChatRoute.AbsentByFirstTwo | src/app/api/chat/route.ts:109-113 | text whose first two characters never appear together does not occur |
| ChatRoute.EmptyCompletionIsGeneric | src/app/api/chat/route.ts:90-117 | for any system prompt, an empty completion is answered with 500 and the generic message |
| ChatRoute.QuotaWins | src/app/api/chat/route.ts:109-110 | for any system prompt, a service error mentioning quota gets the quota message whatever else it mentions |

## Left out

- The completion service call, client set-up and the HTTP request/response plumbing (src/app/api/chat/route.ts:13, 27, 79-90, 96-99, 119-122) are foreign SDK and network I/O. The service is the `generate` parameter of `ChatRoute.Handle`, and a response is a status with a body.
- Logging of the error (`console.error`) is output only.
- ChatRoute.Handle: its own contract leaves out the 200 case. That case is stated by `ChatRoute.HandleWith`, which `Handle` applies to the fixed travel-consultation prompt. Restating it over the long prompt literal would cost the solver more than the rest of the route together.
- ChatRoute.Handle: `message` and each turn's `content` are taken as strings. A truthy non-string message (a number, say), missing content interpolated as "undefined", or a non-array `messages` that makes `forEach` throw are not modelled.
- `setTimeout` delays and stale closures in both components are scheduling effects; the model applies each click, answer and advance in sequence. Two clicks on a single-select option within the 500 ms delay, for example, schedule two advances computed from the same step. Both move to the same successor and both append that step, so `completedSteps` records it twice. The model does not include this interleaving, and `InteractiveHearing.StepsVisitedOnce` holds in the app only when each advance is triggered once.
- InteractiveHearing.HandleNext: the handoff on confirmation passes the preferences of the session as it is when the button is pressed. The one-second delay before `completed` is set is collapsed into the same step.
- `Date.now()` session ids and ISO start times are non-deterministic; they are parameters of `InitialSession`.
- The progress bar's percentage (src/components/chat/hearing-progress.tsx) is floating-point presentation. Only the index and total fed to it are modelled.
- React rendering, markup and the selected-button styling are presentation. Of the rendering, the model keeps which controls exist on a step (option buttons, next, skip, confirmation button).
- `disabled` of the step component is modelled in `HearingStepView.SelectOption` but is always false in `Wizard`, because the step component is only rendered while the hearing is not processing (src/components/chat/interactive-hearing.tsx:93-144).
- Numbers.ParseInt: only decimal digit strings are read. Leading whitespace, signs, and the radix prefixes of full `parseInt` never occur in the option values. Leading zeros are accepted and ignored, as `parseInt` does. The result is an unbounded integer, while JavaScript returns a double: a digit run above 2^53 rounds (`parseInt('9007199254740993')` is 9007199254740992). Every value the catalog offers is at most 30000, where the two agree.
- Numbers.NatToString: renders every number in plain decimal. JavaScript's `${n}` switches to exponent notation from 1e21 (`1e+21円`, which parses back as 1), so the round-trip lemmas built on it hold in the app only below that bound; catalog amounts are far below it.
- HearingStepView.LabelOr: a Dafny map knows only its own keys. The app's lookup `labels[token]` is on an object literal, which also finds inherited `Object.prototype` members: `constructor`, `toString` or `__proto__` return a function or an object instead of passing the token through. `HearingStepView.UnknownTokensPassThrough` therefore holds in the app only for tokens that are not such names; no option value of the catalog is one.
- HearingStepView.Summary: the order of the rows is fixed by construction but not stated as a separate property. The text of every row is stated by the `…RowText`, `AmountBudgetRow` and `CustomBudgetRow` lemmas. The summary's heading "ヒアリング内容:" and the question text are static. A budget or duration of `0` or `NaN` gives no row, as in the app, but React also prints that falsy number itself as a stray "0" or "NaN" in the summary box (src/components/chat/hearing-step.tsx:73, 85). The model drops that text. No catalog option produces either value.
- What the page does with the preferences after `onComplete` is outside this model.
- The chat page, the chat-interface fetch loop, the plans, blog and home pages, the layout and the travel plan cards are UI and transport only.

## Findings

| source | as written | input that shows it | evidently intended | confidence | as-written member | corrected member |
|---|---|---|---|---|---|---|
| src/components/chat/interactive-hearing.tsx:138-144 | The step component is rendered at a fixed position without a `key`. Its `selectedValues` and `hasAnswered` state (src/components/chat/hearing-step.tsx:24-25) therefore survive the change from transportation to interests, and the first interests toggle appends to the old selection. | Pick `train` on transportation, then `gourmet` on interests: the interests answer becomes `['train', 'gourmet']`. | Each step starts with an empty selection, so the answer is `['gourmet']`, and interests only ever lists interest options. | not executed; relies on React keeping the state of a same-type component at the same position | Wizard.StaleSelectionReachesInterests | Wizard.InterestsHoldOnlyInterestOptions |
| src/components/chat/hearing-step.tsx:153-157 | The skip button needs `!hasAnswered`, and `hasAnswered` carries over from the previous step for the same reason. After any pick on transportation, interests shows no skip, and on the optional departure_location step no skip is shown and "next" does nothing. | Pick `train` on transportation, press "next" on interests: departure_location can only be left by choosing a departure point. | An optional step offers "skip" until something is chosen on it, so departure_location can be skipped. | not executed; relies on React keeping the state of a same-type component at the same position | Wizard.StaleAnswerHidesDepartureSkip | Wizard.FreshViewSkipsOptionalSteps |

=== FILE: chat_route.dfy ===
/**
 * The pure parts of the chat endpoint: validation of the incoming message,
 * the framing of the single prompt sent to the completion service, the
 * mapping of a failure to one of four fixed user-facing messages, and the
 * response shape. The completion service is a parameter.
 */
module ChatRoute {
  import opened Wrappers

  /** One prior turn of the conversation. */
  datatype Turn = Turn(role: string, content: string)

  /** The request body; `messages` defaults to `[]` when absent. */
  datatype ChatRequest = ChatRequest(message: Option<string>, messages: seq<Turn>)

  /** A thrown value as the handler inspects it: its `message` property, `None` when it is not an object carrying a string message. */
  datatype Thrown = Thrown(message: Option<string>)

  /** The body as read by `request.json()`, or what reading it threw. */
  datatype Incoming = Parsed(request: ChatRequest) | Unreadable(failure: Thrown)

  /** The call handed to the completion service. */
  datatype GenerateRequest = GenerateRequest(
    model: string, prompt: string, maxOutputTokens: nat, temperature: real, topP: real, topK: nat)

  /** What the completion service produced: the response text, or what it threw. */
  datatype Completion = Completed(text: string) | Failed(error: Thrown)

  datatype Body = Reply(message: string, model: string) | ErrorBody(error: string)

  datatype Response = Response(status: nat, body: Body)

  const ModelName := "gemini-1.5-flash"

  const UserPrefix := "ユーザー: "
  const AssistantPrefix := "アシスタント: "

  const MessageRequired := "メッセージが必要です"
  const GenericError := "チャット機能で問題が発生しました。しばらく後にもう一度お試しください。"
  const QuotaError := "API使用量の上限に達しました。後ほどお試しください。"
  const RateLimitError := "リクエストが多すぎます。少し待ってからお試しください。"
  const ApiKeyError := "API設定に問題があります。管理者にお問い合わせください。"

  /** The four messages a failed request can answer with. */
  const FailureMessages: set<string> := {QuotaError, RateLimitError, ApiKeyError, GenericError}

  /** The text of the error thrown for an empty completion. */
  const EmptyCompletionError := "AI応答が生成されませんでした"

  /** The fixed travel-consultation system prompt. */
  const SystemPrompt: string :=
    "あなたは親切で知識豊富な旅行相談のプロフェッショナルです。\n" +
    "予算3万円以内で実現可能な具体的で実用的な旅行プランを提案してください。\n" +
    "\n" +
    "## 必須要素\n" +
    "- **具体的な金額**：交通費、宿泊費、食事代、観光費用を明記\n" +
    "- **詳細スケジュール**：時間帯別の行動プラン\n" +
    "- **実在する施設**：ホテル名、レストラン名、観光地名を具体的に\n" +
    "- **交通手段**：電車の路線名、バス番号、所要時間、料金\n" +
    "- **予約方法**：実際の予約サイトや方法\n" +
    "\n" +
    "## 回答フォーマット（必須）\n" +
    "### 🗾 旅行プラン概要\n" +
    "- **目的地**: [具体的な地名]\n" +
    "- **期間**: [X泊Y日]\n" +
    "- **総予算**: [金額]円\n" +
    "- **テーマ**: [例：グルメ旅、歴史探訪、温泉巡りなど]\n" +
    "\n" +
    "### 💰 詳細予算内訳\n" +
    "- 交通費: [金額]円\n" +
    "- 宿泊費: [金額]円（[具体的なホテル名]）\n" +
    "- 食事代: [金額]円\n" +
    "- 観光・体験費: [金額]円\n" +
    "- お土産・その他: [金額]円\n" +
    "\n" +
    "### 📅 日程スケジュール\n" +
    "**1日目**\n" +
    "- XX:XX 出発（[具体的な駅名・交通手段]）\n" +
    "- XX:XX [具体的な観光地名]到着（入場料○○円）\n" +
    "- XX:XX [具体的なレストラン名]でランチ（予算○○円）\n" +
    "- XX:XX [宿泊施設名]チェックイン\n" +
    "\n" +
    "### 🌟 おすすめポイント・注意事項\n" +
    "- [具体的なTipsや注意点]\n" +
    "\n" +
    "友人に相談されているような親しみやすい口調で、実際に使える情報を提供してください。"

  /** The role label of a turn: the user label for `user`, the assistant label for any other role. */
  function Prefix(role: string): (p: string)
    ensures role == "user" ==> p == UserPrefix
    ensures role != "user" ==> p == AssistantPrefix
  {
    if role == "user" then UserPrefix else AssistantPrefix
  }

  /** One prior turn as it appears in the prompt. */
  function RenderTurn(t: Turn): string {
    Prefix(t.role) + t.content + "\n\n"
  }

  /** The prior turns, each rendered, in order. */
  function Transcript(turns: seq<Turn>): string
    decreases |turns|
  {
    if |turns| == 0 then "" else Transcript(turns[..|turns| - 1]) + RenderTurn(turns[|turns| - 1])
  }

  /** The prompt: system prompt, blank line, prior turns, the new message, and an open assistant cue. */
  function ConversationPrompt(system: string, turns: seq<Turn>, message: string): string {
    system + "\n\n" + Transcript(turns) + UserPrefix + message + "\n\n" + AssistantPrefix
  }

  /** The history string built turn by turn, as the handler accumulates it. */
  method BuildConversation(system: string, turns: seq<Turn>, message: string) returns (history: string)
    ensures history == ConversationPrompt(system, turns, message)
  {
    history := system + "\n\n";
    var i := 0;
    while i < |turns|
      invariant 0 <= i <= |turns|
      invariant history == system + "\n\n" + Transcript(turns[..i])
    {
      var t := turns[i];
      var prefix := if t.role == "user" then UserPrefix else AssistantPrefix;
      var line := prefix + t.content + "\n\n";
      HistoryGrows(system, turns, i, history, line);
      history := history + line;
      i := i + 1;
    }
    HistoryCloses(system, turns, message, history);
    history := history + UserPrefix + message + "\n\n" + AssistantPrefix;
  }

  /** The prompt opens with the system prompt and a blank line and closes with the open assistant cue. */
  lemma PromptFraming(system: string, turns: seq<Turn>, message: string)
    ensures var prompt := ConversationPrompt(system, turns, message);
      && |prompt| == |system| + 2 + |Transcript(turns)| + |UserPrefix| + |message| + 2 + |AssistantPrefix|
      && prompt[..|system| + 2] == system + "\n\n"
      && prompt[|prompt| - |AssistantPrefix|..] == AssistantPrefix
  {
  }

  /** One more turn appends its rendering to the transcript. */
  lemma TranscriptSnoc(turns: seq<Turn>, t: Turn)
    ensures Transcript(turns + [t]) == Transcript(turns) + RenderTurn(t)
  {
    assert (turns + [t])[..|turns|] == turns;
    assert (turns + [t])[|turns|] == t;
  }

  /** Appending the next rendered turn extends the transcript part of the history by that turn. */
  lemma HistoryGrows(system: string, turns: seq<Turn>, i: nat, history: string, line: string)
    requires i < |turns|
    requires history == system + "\n\n" + Transcript(turns[..i])
    requires line == Prefix(turns[i].role) + turns[i].content + "\n\n"
    ensures history + line == system + "\n\n" + Transcript(turns[..i + 1])
  {
    assert turns[..i + 1] == turns[..i] + [turns[i]];
    TranscriptSnoc(turns[..i], turns[i]);
    var head, done := system + "\n\n", Transcript(turns[..i]);
    assert head + done + line == head + (done + line);
  }

  /** Once every turn is in, appending the open user and assistant cues gives the prompt. */
  lemma HistoryCloses(system: string, turns: seq<Turn>, message: string, history: string)
    requires history == system + "\n\n" + Transcript(turns[..|turns|])
    ensures history + UserPrefix + message + "\n\n" + AssistantPrefix == ConversationPrompt(system, turns, message)
  {
    assert turns[..|turns|] == turns;
  }

  /** The transcript of a concatenation is the concatenation of the transcripts. */
  lemma {:induction false} TranscriptAppend(a: seq<Turn>, b: seq<Turn>)
    ensures Transcript(a + b) == Transcript(a) + Transcript(b)
    decreases |b|
  {
    if |b| == 0 {
      assert a + b == a;
    } else {
      var b' := b[..|b| - 1];
      var last := b[|b| - 1];
      assert b == b' + [last];
      assert a + b == (a + b') + [last];
      calc {
        Transcript(a + b);
        Transcript((a + b') + [last]);
        { TranscriptSnoc(a + b', last); }
        Transcript(a + b') + RenderTurn(last);
        { TranscriptAppend(a, b'); }
        (Transcript(a) + Transcript(b')) + RenderTurn(last);
        Transcript(a) + (Transcript(b') + RenderTurn(last));
        { TranscriptSnoc(b', last); }
        Transcript(a) + Transcript(b' + [last]);
        Transcript(a) + Transcript(b);
      }
    }
  }

  /** With no prior turns the prompt is the system prompt followed directly by the new message and the cue. */
  lemma PromptWithoutTurns(system: string, message: string)
    ensures ConversationPrompt(system, [], message)
      == system + "\n\nユーザー: " + message + "\n\nアシスタント: "
  {
  }

  /** Each further prior turn inserts its rendering just before the new message. */
  lemma PromptWithOneMoreTurn(system: string, turns: seq<Turn>, t: Turn, message: string)
    ensures ConversationPrompt(system, turns + [t], message)
      == system + "\n\n" + Transcript(turns) + (Prefix(t.role) + t.content + "\n\n")
         + UserPrefix + message + "\n\n" + AssistantPrefix
  {
    TranscriptSnoc(turns, t);
    var head, tr, r := system + "\n\n", Transcript(turns), RenderTurn(t);
    assert head + (tr + r) == head + tr + r;
  }

  /** `sub` occurs in `s` starting at position `i`. */
  ghost predicate OccursAt(sub: string, s: string, i: int) {
    0 <= i <= |s| - |sub| && s[i..i + |sub|] == sub
  }

  /** `sub` occurs in `s` at some position. */
  ghost predicate IsSubstring(sub: string, s: string) {
    exists i :: OccursAt(sub, s, i)
  }

  /** `s.includes(sub)`. */
  function Contains(s: string, sub: string): (r: bool)
    ensures r <==> IsSubstring(sub, s)
    decreases |s|
  {
    if |sub| > |s| then false
    else if s[..|sub|] == sub then
      assert OccursAt(sub, s, 0);
      true
    else
      var r := Contains(s[1..], sub);
      assert IsSubstring(sub, s[1..]) ==> IsSubstring(sub, s) by {
        if IsSubstring(sub, s[1..]) {
          var i :| OccursAt(sub, s[1..], i);
          assert s[i + 1..i + 1 + |sub|] == s[1..][i..i + |sub|];
          assert OccursAt(sub, s, i + 1);
        }
      }
      assert IsSubstring(sub, s) ==> IsSubstring(sub, s[1..]) by {
        if IsSubstring(sub, s) {
          var i :| OccursAt(sub, s, i);
          assert i != 0;
          assert s[1..][i - 1..i - 1 + |sub|] == s[i..i + |sub|];
          assert OccursAt(sub, s[1..], i - 1);
        }
      }
      r
  }

  /**
   * The user-facing message for a failure: checked in the order quota, rate
   * limit, API key; anything else, and a failure without a string message,
   * gets the generic message.
   */
  function MapError(message: Option<string>): (r: string)
    ensures r in FailureMessages
    ensures message.Some? && IsSubstring("quota", message.value) ==> r == QuotaError
    ensures message.Some? && !IsSubstring("quota", message.value) && IsSubstring("rate limit", message.value) ==>
      r == RateLimitError
    ensures (message.Some? && !IsSubstring("quota", message.value) && !IsSubstring("rate limit", message.value)
             && IsSubstring("API key", message.value)) ==> r == ApiKeyError
    ensures (message.None? || (!IsSubstring("quota", message.value) && !IsSubstring("rate limit", message.value)
                               && !IsSubstring("API key", message.value))) ==> r == GenericError
  {
    match message
    case None => GenericError
    case Some(text) =>
      if Contains(text, "quota") then QuotaError
      else if Contains(text, "rate limit") then RateLimitError
      else if Contains(text, "API key") then ApiKeyError
      else GenericError
  }

  /** The completion call for `prompt`, with the fixed decoding parameters. */
  function Outbound(prompt: string): (g: GenerateRequest)
    ensures g.model == ModelName && g.prompt == prompt
    ensures g.maxOutputTokens == 1000 && g.temperature == 0.7 && g.topP == 0.8 && g.topK == 40
  {
    GenerateRequest(ModelName, prompt, 1000, 0.7, 0.8, 40)
  }

  /**
   * The endpoint's logic for the system prompt `system`: 400 for a missing
   * or empty message; otherwise one call to `generate`, answered verbatim
   * when it returns text and with a mapped fixed message and 500 when it
   * throws, returns nothing, or the body could not be read.
   */
  function HandleWith(system: string, incoming: Incoming, generate: GenerateRequest -> Completion): (resp: Response)
    ensures resp.status in {200, 400, 500}
    ensures resp.status == 400 <==> incoming.Parsed? && !Truthy(incoming.request.message)
    ensures resp.status == 400 ==> resp.body == ErrorBody(MessageRequired)
    ensures resp.status == 500 ==> resp.body.ErrorBody? && resp.body.error in FailureMessages
    ensures resp.status == 200 <==>
      && incoming.Parsed? && Truthy(incoming.request.message)
      && var c := generate(Outbound(ConversationPrompt(system, incoming.request.messages, incoming.request.message.value)));
         c.Completed? && c.text != ""
    ensures resp.status == 200 ==>
      resp.body == Reply(
        generate(Outbound(ConversationPrompt(system, incoming.request.messages, incoming.request.message.value))).text,
        ModelName)
    ensures incoming.Unreadable? ==> resp == Response(500, ErrorBody(MapError(incoming.failure.message)))
    ensures incoming.Parsed? && Truthy(incoming.request.message) ==>
      var c := generate(Outbound(ConversationPrompt(system, incoming.request.messages, incoming.request.message.value)));
      c.Failed? ==> resp == Response(500, ErrorBody(MapError(c.error.message)))
  {
    match incoming
    case Unreadable(failure) => Response(500, ErrorBody(MapError(failure.message)))
    case Parsed(request) =>
      if !Truthy(request.message) then Response(400, ErrorBody(MessageRequired))
      else
        var prompt := ConversationPrompt(system, request.messages, request.message.value);
        match generate(Outbound(prompt))
        case Failed(error) => Response(500, ErrorBody(MapError(error.message)))
        case Completed(text) =>
          if text == "" then Response(500, ErrorBody(MapError(Some(EmptyCompletionError))))
          else Response(200, Reply(text, ModelName))
  }

  /** The POST handler: the endpoint's logic with the fixed travel-consultation system prompt. */
  function Handle(incoming: Incoming, generate: GenerateRequest -> Completion): (resp: Response)
    ensures resp.status in {200, 400, 500}
    ensures resp.status == 400 <==> incoming.Parsed? && !Truthy(incoming.request.message)
    ensures resp.status == 400 ==> resp.body == ErrorBody(MessageRequired)
    ensures resp.status == 500 ==> resp.body.ErrorBody? && resp.body.error in FailureMessages
  {
    HandleWith(SystemPrompt, incoming, generate)
  }

  /** A missing or empty message is rejected before any prompt reaches the completion service. */
  lemma RejectionIgnoresService(system: string, incoming: Incoming, g1: GenerateRequest -> Completion, g2: GenerateRequest -> Completion)
    requires incoming.Parsed? && !Truthy(incoming.request.message)
    ensures HandleWith(system, incoming, g1) == HandleWith(system, incoming, g2) == Response(400, ErrorBody(MessageRequired))
  {
  }

  /** No two consecutive characters of `s` start `sub`, so `sub` does not occur in `s`. */
  lemma AbsentByFirstTwo(sub: string, s: string)
    requires |sub| >= 2
    requires forall k :: 0 <= k < |s| - 1 ==> !(s[k] == sub[0] && s[k + 1] == sub[1])
    ensures !IsSubstring(sub, s)
  {
    forall i | 0 <= i <= |s| - |sub|
      ensures !OccursAt(sub, s, i)
    {
      assert !(s[i] == sub[0] && s[i + 1] == sub[1]);
      assert s[i..i + |sub|][0] == s[i] && s[i..i + |sub|][1] == s[i + 1];
    }
  }

  /** An empty completion is answered with the generic message. */
  lemma EmptyCompletionIsGeneric(system: string, incoming: Incoming, generate: GenerateRequest -> Completion)
    requires incoming.Parsed? && Truthy(incoming.request.message)
    requires generate(Outbound(ConversationPrompt(system, incoming.request.messages, incoming.request.message.value)))
      == Completed("")
    ensures HandleWith(system, incoming, generate) == Response(500, ErrorBody(GenericError))
  {
    var s := EmptyCompletionError;
    AbsentByFirstTwo("quota", s);
    AbsentByFirstTwo("rate limit", s);
    AbsentByFirstTwo("API key", s);
  }

  /** A provider error mentioning the quota gets the quota message, whatever else it mentions. */
  lemma QuotaWins(system: string, incoming: Incoming, generate: GenerateRequest -> Completion, text: string)
    requires incoming.Parsed? && Truthy(incoming.request.message)
    requires generate(Outbound(ConversationPrompt(system, incoming.request.messages, incoming.request.message.value)))
      == Failed(Thrown(Some(text)))
    requires Contains(text, "quota")
    ensures HandleWith(system, incoming, generate) == Response(500, ErrorBody(QuotaError))
  {
  }
}

=== FILE: hearing_flow.dfy ===
/**
 * The hearing-flow catalog: a fixed map from step id to step, the
 * transition function that picks an option's branch before the step's
 * default successor, and the per-step completion test.
 */
module HearingFlow {
  import opened Wrappers
  import opened Numbers
  import opened Lists
  import opened HearingTypes

  const Welcome := "welcome"
  const BudgetStep := "budget"
  const GroupSizeStep := "group_size"
  const DurationStep := "duration"
  const TransportationStep := "transportation"
  const InterestsStep := "interests"
  const DepartureStep := "departure_location"
  const ConfirmationStep := "confirmation"
  const ResultStep := "result"

  /** An option that branches to `next`. */
  function Branch(id: string, labelText: string, value: string, next: string): HearingOption {
    HearingOption(id, labelText, value, Some(next))
  }

  /** An option without a branch of its own. */
  function Plain(id: string, labelText: string, value: string): HearingOption {
    HearingOption(id, labelText, value, None)
  }

  const WelcomeDef: HearingStep := HearingStep(Welcome, Question,
    "こんにちは！あなたの理想の旅行プランを一緒に考えましょう。まず、どのような旅行をお考えですか？",
    Some([
      Branch("new_plan", "新しい旅行を計画したい", "new_plan", BudgetStep),
      Branch("idea_search", "旅行先のアイデアを探している", "idea_search", BudgetStep)]),
    true, Some(BudgetStep))

  const BudgetDef: HearingStep := HearingStep(BudgetStep, Question,
    "今回の旅行のご予算はどのくらいでしょうか？",
    Some([
      Branch("budget_5k", "5千円以内（日帰り）", "5000", GroupSizeStep),
      Branch("budget_10k", "1万円以内", "10000", GroupSizeStep),
      Branch("budget_20k", "2万円以内", "20000", GroupSizeStep),
      Branch("budget_30k", "3万円以内", "30000", GroupSizeStep),
      Branch("budget_custom", "その他（後で詳しく）", "custom", GroupSizeStep)]),
    true, Some(GroupSizeStep))

  const GroupSizeDef: HearingStep := HearingStep(GroupSizeStep, Question,
    "何名での旅行でしょうか？",
    Some([
      Branch("solo", "1人（一人旅）", "solo", DurationStep),
      Branch("couple", "2人（カップル・夫婦）", "couple", DurationStep),
      Branch("family", "3-4人（家族）", "family", DurationStep),
      Branch("friends", "3-6人（友人グループ）", "friends", DurationStep),
      Branch("large_group", "7人以上", "large_group", DurationStep)]),
    true, Some(DurationStep))

  const DurationDef: HearingStep := HearingStep(DurationStep, Question,
    "何日間の旅行をお考えですか？",
    Some([
      Branch("day_trip", "日帰り", "1", TransportationStep),
      Branch("one_night", "1泊2日", "2", TransportationStep),
      Branch("two_nights", "2泊3日", "3", TransportationStep),
      Branch("three_nights", "3泊4日", "4", TransportationStep),
      Branch("longer", "4泊以上", "5+", TransportationStep)]),
    true, Some(TransportationStep))

  const TransportationDef: HearingStep := HearingStep(TransportationStep, Question,
    "希望の交通手段はありますか？",
    Some([
      Branch("train", "電車・新幹線", "train", InterestsStep),
      Branch("car", "車（レンタカー・マイカー）", "car", InterestsStep),
      Branch("bus", "高速バス", "bus", InterestsStep),
      Branch("plane", "飛行機", "plane", InterestsStep),
      Branch("mixed", "組み合わせ", "mixed", InterestsStep),
      Branch("any_transport", "お任せ", "any", InterestsStep)]),
    true, Some(InterestsStep))

  const InterestsDef: HearingStep := HearingStep(InterestsStep, Question,
    "旅行で特に楽しみたいことはありますか？（複数選択可）",
    Some([
      Plain("sightseeing", "観光・名所巡り", "sightseeing"),
      Plain("gourmet", "グルメ・食べ歩き", "gourmet"),
      Plain("onsen", "温泉・リラクゼーション", "onsen"),
      Plain("nature", "自然・アウトドア", "nature"),
      Plain("culture", "歴史・文化体験", "culture"),
      Plain("shopping", "ショッピング", "shopping"),
      Plain("nightlife", "夜景・ナイトライフ", "nightlife"),
      Plain("photography", "写真・インスタ映え", "photography")]),
    false, Some(DepartureStep))

  const DepartureDef: HearingStep := HearingStep(DepartureStep, Question,
    "出発地はどちらからでしょうか？",
    Some([
      Branch("tokyo", "東京都心", "東京", ConfirmationStep),
      Branch("osaka", "大阪市内", "大阪", ConfirmationStep),
      Branch("nagoya", "名古屋市内", "名古屋", ConfirmationStep),
      Branch("fukuoka", "福岡市内", "福岡", ConfirmationStep),
      Branch("other", "その他", "other", ConfirmationStep)]),
    false, Some(ConfirmationStep))

  const ConfirmationDef: HearingStep := HearingStep(ConfirmationStep, Confirmation,
    "ヒアリング内容を確認します。これらの情報をもとに、あなたにぴったりの旅行プランをご提案いたします。",
    None, true, Some(ResultStep))

  const ResultDef: HearingStep := HearingStep(ResultStep, Result, "プランを生成中です...", None, false, None)

  const Catalog: map<string, HearingStep> := map[
    Welcome := WelcomeDef,
    BudgetStep := BudgetDef,
    GroupSizeStep := GroupSizeDef,
    DurationStep := DurationDef,
    TransportationStep := TransportationDef,
    InterestsStep := InterestsDef,
    DepartureStep := DepartureDef,
    ConfirmationStep := ConfirmationDef,
    ResultStep := ResultDef
  ]

  /** The catalog keys in declaration order, which is also the order of `Object.keys`. */
  const DefaultPath: seq<string> := [Welcome, BudgetStep, GroupSizeStep, DurationStep,
    TransportationStep, InterestsStep, DepartureStep, ConfirmationStep, ResultStep]

  /** `i` is the first option of `opts` whose value is `v` (what `Array.prototype.find` returns). */
  predicate IsFirstMatch(opts: seq<HearingOption>, v: string, i: int) {
    0 <= i < |opts| && opts[i].value == v && forall j :: 0 <= j < i ==> opts[j].value != v
  }

  /** The first option at or after position `from` whose value is `v`. */
  function FindFrom(opts: seq<HearingOption>, v: string, from: nat): (r: Option<nat>)
    requires from <= |opts|
    ensures r.Some? ==> from <= r.value < |opts| && opts[r.value].value == v
    ensures r.Some? ==> forall j :: from <= j < r.value ==> opts[j].value != v
    ensures r.None? ==> forall j :: from <= j < |opts| ==> opts[j].value != v
    decreases |opts| - from
  {
    if from == |opts| then None
    else if opts[from].value == v then Some(from)
    else FindFrom(opts, v, from + 1)
  }

  /** The option branch that applies when `selected` is chosen on `step`, if any. */
  ghost predicate SelectsBranch(step: HearingStep, selected: Option<string>, i: int) {
    && Truthy(selected)
    && step.options.Some?
    && IsFirstMatch(step.options.value, selected.value, i)
  }

  /**
   * The successor of `step` when `selected` is the chosen value: the matching
   * option's branch first, the step's default second, and nothing when
   * neither is a non-empty id.
   */
  function NextOf(step: HearingStep, selected: Option<string>): (r: Option<string>)
    ensures r.Some? ==> r.value != ""
    ensures forall i :: SelectsBranch(step, selected, i) && Truthy(step.options.value[i].nextStep) ==>
      r == step.options.value[i].nextStep
    ensures (forall i :: SelectsBranch(step, selected, i) ==> !Truthy(step.options.value[i].nextStep)) ==>
      r == (if Truthy(step.nextStep) then step.nextStep else None)
  {
    var branch :=
      if Truthy(selected) && step.options.Some? then
        match FindFrom(step.options.value, selected.value, 0)
        case Some(i) => step.options.value[i].nextStep
        case None => None
      else None;
    if Truthy(branch) then branch
    else if Truthy(step.nextStep) then step.nextStep
    else None
  }

  /** Every target a step or one of its options names. */
  predicate TargetsIn(step: HearingStep, ids: set<string>) {
    && (step.nextStep.Some? ==> step.nextStep.value in ids)
    && (step.options.Some? ==>
          forall i :: 0 <= i < |step.options.value| && step.options.value[i].nextStep.Some? ==>
            step.options.value[i].nextStep.value in ids)
  }

  /** No option branches anywhere but to the step's own default successor. */
  predicate UniformBranches(step: HearingStep) {
    step.options.Some? ==>
      forall i :: 0 <= i < |step.options.value| ==>
        step.options.value[i].nextStep.None? || step.options.value[i].nextStep == step.nextStep
  }

  /** The step definitions in declaration order, aligned with `DefaultPath`. */
  const Steps: seq<HearingStep> := [WelcomeDef, BudgetDef, GroupSizeDef, DurationDef,
    TransportationDef, InterestsDef, DepartureDef, ConfirmationDef, ResultDef]

  lemma PathIdsDistinct()
    ensures NoDuplicates(DefaultPath)
  {
  }

  lemma CatalogKeys()
    ensures forall id :: id in Catalog <==> id in DefaultPath
    ensures forall k :: 0 <= k < |DefaultPath| ==> Catalog[DefaultPath[k]] == Steps[k]
  {
  }

  /** Facts about each step definition on its own. */
  lemma StepDefinitions()
    ensures forall k :: 0 <= k < |Steps| ==> Steps[k].id == DefaultPath[k]
    ensures forall k :: 0 <= k < |Steps| ==> TargetsIn(Steps[k], Catalog.Keys)
    ensures forall k :: 0 <= k < |Steps| ==> UniformBranches(Steps[k])
    ensures forall k :: 0 <= k < |Steps| - 1 ==> Steps[k].nextStep == Some(DefaultPath[k + 1])
    ensures ResultDef.nextStep == None
  {
  }

  /**
   * The catalog is keyed by step id, is closed under every step and option
   * target, holds exactly the ids of `DefaultPath`, and every step's default
   * successor is the next id on that path; `result` has none.
   */
  lemma CatalogShape()
    ensures forall id :: id in Catalog <==> id in DefaultPath
    ensures NoDuplicates(DefaultPath)
    ensures forall id :: id in Catalog ==> Catalog[id].id == id
    ensures forall id :: id in Catalog ==> TargetsIn(Catalog[id], Catalog.Keys)
    ensures forall id :: id in Catalog ==> UniformBranches(Catalog[id])
    ensures forall k :: 0 <= k < |DefaultPath| - 1 ==> Catalog[DefaultPath[k]].nextStep == Some(DefaultPath[k + 1])
    ensures Catalog[ResultStep].nextStep == None
  {
    PathIdsDistinct();
    CatalogKeys();
    StepDefinitions();
    forall id | id in Catalog
      ensures Catalog[id].id == id && TargetsIn(Catalog[id], Catalog.Keys) && UniformBranches(Catalog[id])
    {
      var k := IndexOf(DefaultPath, id);
      assert Catalog[id] == Steps[k];
    }
  }

  /** `getNextStep`: the successor of the step named `currentStepId`, or `null`. */
  function GetNextStep(currentStepId: string, selected: Option<string>): (r: Option<string>)
    ensures currentStepId !in Catalog ==> r == None
    ensures r.Some? ==> r.value in Catalog
  {
    CatalogShape();
    if currentStepId in Catalog then NextOf(Catalog[currentStepId], selected) else None
  }

  /** Under uniform branches the selected value never matters. */
  lemma NextOfIgnoresSelection(step: HearingStep, selected: Option<string>)
    requires UniformBranches(step)
    ensures NextOf(step, selected) == NextOf(step, None)
  {
    if exists i :: SelectsBranch(step, selected, i) && Truthy(step.options.value[i].nextStep) {
      var i :| SelectsBranch(step, selected, i) && Truthy(step.options.value[i].nextStep);
      assert step.options.value[i].nextStep == step.nextStep;
    }
  }

  /** In this catalog an option's branch always equals its step's default. */
  lemma SelectionNeverBranches(currentStepId: string, selected: Option<string>)
    ensures GetNextStep(currentStepId, selected) == GetNextStep(currentStepId, None)
  {
    CatalogShape();
    if currentStepId in Catalog {
      NextOfIgnoresSelection(Catalog[currentStepId], selected);
    }
  }

  /** The result step is terminal whatever is selected. */
  lemma ResultIsTerminal(selected: Option<string>)
    ensures GetNextStep(ResultStep, selected) == None
  {
    SelectionNeverBranches(ResultStep, selected);
    CatalogShape();
  }

  /** The position of a step on the default path. */
  function Rank(id: string): (k: nat)
    requires id in Catalog
    ensures k < |DefaultPath| && DefaultPath[k] == id
  {
    CatalogShape();
    IndexOf(DefaultPath, id)
  }

  /** Following the default successor moves exactly one place along `DefaultPath`. */
  lemma SuccessorRank(k: nat)
    requires k < |DefaultPath|
    ensures GetNextStep(DefaultPath[k], None) == (if k + 1 < |DefaultPath| then Some(DefaultPath[k + 1]) else None)
    ensures k + 1 < |DefaultPath| ==> DefaultPath[k + 1] in Catalog && Rank(DefaultPath[k + 1]) == k + 1
  {
    CatalogShape();
    if k + 1 < |DefaultPath| {
      assert Rank(DefaultPath[k + 1]) == k + 1;
    }
  }

  /** The steps visited by following default successors from `id` until there is none. */
  function Walk(id: string): (path: seq<string>)
    requires id in Catalog
    ensures |path| > 0 && path[0] == id
    decreases |DefaultPath| - Rank(id)
  {
    SuccessorRank(Rank(id));
    match GetNextStep(id, None)
    case None => [id]
    case Some(next) => [id] + Walk(next)
  }

  lemma {:induction false} WalkSuffix(k: nat)
    requires k < |DefaultPath|
    ensures DefaultPath[k] in Catalog && Walk(DefaultPath[k]) == DefaultPath[k..]
    decreases |DefaultPath| - k
  {
    WalkStep(k);
    if k + 1 < |DefaultPath| {
      WalkSuffix(k + 1);
      assert DefaultPath[k..] == [DefaultPath[k]] + DefaultPath[k + 1..];
    }
  }

  /** One step of `Walk` along `DefaultPath`: the walk from place `k` is that step followed by the walk from `k + 1`. */
  lemma WalkStep(k: nat)
    requires k < |DefaultPath|
    ensures DefaultPath[k] in Catalog
    ensures k + 1 < |DefaultPath| ==> Walk(DefaultPath[k]) == [DefaultPath[k]] + Walk(DefaultPath[k + 1])
    ensures k + 1 == |DefaultPath| ==> Walk(DefaultPath[k]) == [DefaultPath[k]]
  {
    CatalogKeys();
    PathIdsDistinct();
    SuccessorRank(k);
    assert Rank(DefaultPath[k]) == k;
  }

  /**
   * From `welcome` the default successors visit welcome, budget, group_size,
   * duration, transportation, interests, departure_location, confirmation and
   * result, each once, and stop.
   */
  lemma WalkFromWelcome()
    ensures Walk(Welcome) == DefaultPath
    ensures NoDuplicates(Walk(Welcome))
    ensures Walk(Welcome)[|Walk(Welcome)| - 1] == ResultStep
  {
    WalkSuffix(0);
    CatalogShape();
  }

  /** `isStepCompleted`: whether the step counts as answered under `p`. */
  function IsStepCompleted(stepId: string, p: Preferences): (r: bool)
    ensures stepId in {Welcome, InterestsStep, DepartureStep, ConfirmationStep} ==> r
    ensures stepId !in Catalog || stepId == ResultStep ==> !r
    ensures stepId == BudgetStep ==> (r <==> p.budget.Some?)
    ensures stepId == GroupSizeStep ==> (r <==> p.groupSize.Some? || p.groupType.Some?)
    ensures stepId == DurationStep ==> (r <==> p.duration.Some?)
    ensures stepId == TransportationStep ==> (r <==> p.transportation.Some?)
  {
    match stepId
    case "welcome" => true
    case "budget" => p.budget.Some?
    case "group_size" => p.groupSize.Some? || p.groupType.Some?
    case "duration" => p.duration.Some?
    case "transportation" => p.transportation.Some?
    case "interests" => true
    case "departure_location" => true
    case "confirmation" => true
    case _ => false
  }
}

=== FILE: hearing_step.dfy ===
/**
 * One rendered hearing step: how a click on an option changes the step's
 * local selection, when the explicit next or skip action advances, the
 * token-to-label tables, and the summary shown on the confirmation step.
 */
module HearingStepView {
  import opened Wrappers
  import opened Numbers
  import opened Lists
  import opened HearingTypes
  import opened HearingFlow

  /** The component's local state: the selected values and whether anything was chosen. */
  datatype StepView = StepView(selected: seq<string>, hasAnswered: bool)

  /** The local state of a newly mounted step component. */
  const FreshView := StepView([], false)

  /** The outcome of a click: the new local state, the values sent to `onAnswer`, and whether `onNext` follows. */
  datatype Selection = Selection(view: StepView, answer: seq<string>, autoAdvance: bool)

  /** Multi-select toggle: drop every occurrence of a selected value, append an unselected one. */
  function Toggle(selected: seq<string>, v: string): (r: seq<string>)
    ensures v in selected ==> r == RemoveAll(selected, v) && multiset(r) == multiset(selected)[v := 0]
    ensures v !in selected ==> r == selected + [v]
    ensures v in r <==> v !in selected
    ensures forall x :: x != v ==> (x in r <==> x in selected)
  {
    if v in selected then
      var r := RemoveAll(selected, v);
      assert forall x :: x in r <==> x in multiset(r);
      r
    else selected + [v]
  }

  /** Toggling an absent value twice gives the list back. */
  lemma {:induction false} RemoveAppended(xs: seq<string>, v: string)
    requires v !in xs
    ensures RemoveAll(xs + [v], v) == xs
    decreases |xs|
  {
    if |xs| == 0 {
      assert [v][1..] == [];
    } else {
      assert (xs + [v])[1..] == xs[1..] + [v];
      RemoveAppended(xs[1..], v);
      assert xs == [xs[0]] + xs[1..];
    }
  }

  lemma ToggleTwiceRestores(selected: seq<string>, v: string)
    requires v !in selected
    ensures Toggle(Toggle(selected, v), v) == selected
  {
    RemoveAppended(selected, v);
  }

  lemma {:induction false} RemoveAllKeepsNoDuplicates(xs: seq<string>, v: string)
    requires NoDuplicates(xs)
    ensures NoDuplicates(RemoveAll(xs, v))
    decreases |xs|
  {
    if |xs| > 0 {
      var tail := xs[1..];
      assert NoDuplicates(tail);
      RemoveAllKeepsNoDuplicates(tail, v);
      var rest := RemoveAll(tail, v);
      assert xs[0] !in tail;
      assert xs[0] !in multiset(rest);
    }
  }

  /** Toggling keeps a duplicate-free selection duplicate-free. */
  lemma ToggleKeepsNoDuplicates(selected: seq<string>, v: string)
    requires NoDuplicates(selected)
    ensures NoDuplicates(Toggle(selected, v))
  {
    if v in selected {
      RemoveAllKeepsNoDuplicates(selected, v);
    }
  }

  /**
   * `handleOptionSelect`: nothing while disabled; on `interests` a toggle
   * without auto-advance; on any other step exactly the clicked value,
   * followed by an automatic advance.
   */
  function SelectOption(step: HearingStep, view: StepView, option: HearingOption, disabled: bool): (r: Option<Selection>)
    ensures disabled <==> r.None?
    ensures r.Some? ==> r.value.view == StepView(r.value.answer, true)
    ensures r.Some? ==> (r.value.autoAdvance <==> step.id != InterestsStep)
    ensures r.Some? && step.id == InterestsStep ==> r.value.answer == Toggle(view.selected, option.value)
    ensures r.Some? && step.id != InterestsStep ==> r.value.answer == [option.value]
  {
    if disabled then None
    else
      var values := if step.id == InterestsStep then Toggle(view.selected, option.value) else [option.value];
      Some(Selection(StepView(values, true), values, step.id != InterestsStep))
  }

  /** The guard of the explicit next/skip action. */
  predicate NextAdvances(step: HearingStep) {
    step.id == InterestsStep || !step.required
  }

  /** In the catalog the explicit action advances exactly on interests, departure_location and result. */
  lemma NextAdvancesOnCatalog(id: string)
    requires id in Catalog
    ensures NextAdvances(Catalog[id]) <==> id in {InterestsStep, DepartureStep, ResultStep}
  {
    CatalogKeys();
    PathIdsDistinct();
  }

  /** The "next" button is rendered on `interests` once something was chosen. */
  predicate ProceedShown(step: HearingStep, view: StepView) {
    step.stepType != Confirmation && step.id == InterestsStep && view.hasAnswered
  }

  /** The "skip" button is rendered on an optional step until something was chosen. */
  predicate SkipShown(step: HearingStep, view: StepView) {
    step.stepType != Confirmation && !step.required && !view.hasAnswered
  }

  /**
   * On the catalog, "next" is offered only on `interests` once something was
   * chosen, and "skip" on the three optional steps until something was chosen.
   */
  lemma ButtonsOnCatalog(id: string, view: StepView)
    requires id in Catalog
    ensures ProceedShown(Catalog[id], view) <==> id == InterestsStep && view.hasAnswered
    ensures SkipShown(Catalog[id], view) <==> id in {InterestsStep, DepartureStep, ResultStep} && !view.hasAnswered
  {
    CatalogKeys();
    PathIdsDistinct();
  }

  const GroupTypeLabels: map<string, string> := map[
    "solo" := "1人（一人旅）",
    "couple" := "2人（カップル・夫婦）",
    "family" := "3-4人（家族）",
    "friends" := "3-6人（友人グループ）",
    "large_group" := "7人以上"]

  const TransportationLabels: map<string, string> := map[
    "train" := "電車・新幹線",
    "car" := "車",
    "bus" := "高速バス",
    "plane" := "飛行機",
    "mixed" := "組み合わせ",
    "any" := "お任せ"]

  const InterestLabels: map<string, string> := map[
    "sightseeing" := "観光・名所巡り",
    "gourmet" := "グルメ・食べ歩き",
    "onsen" := "温泉・リラクゼーション",
    "nature" := "自然・アウトドア",
    "culture" := "歴史・文化体験",
    "shopping" := "ショッピング",
    "nightlife" := "夜景・ナイトライフ",
    "photography" := "写真・インスタ映え"]

  /** `labels[token] || token`: the label of a known token, the token itself otherwise. */
  function LabelOr(labels: map<string, string>, token: string): (r: string)
    ensures token in labels && labels[token] != "" ==> r == labels[token]
    ensures token !in labels || labels[token] == "" ==> r == token
  {
    if token in labels && labels[token] != "" then labels[token] else token
  }

  function GroupTypeLabel(groupType: string): (r: string)
    ensures groupType in GroupTypeLabels ==> r == GroupTypeLabels[groupType]
    ensures groupType !in GroupTypeLabels ==> r == groupType
  {
    LabelOr(GroupTypeLabels, groupType)
  }

  function TransportationLabel(transportation: string): (r: string)
    ensures transportation in TransportationLabels ==> r == TransportationLabels[transportation]
    ensures transportation !in TransportationLabels ==> r == transportation
  {
    LabelOr(TransportationLabels, transportation)
  }

  function InterestLabel(interest: string): (r: string)
    ensures interest in InterestLabels ==> r == InterestLabels[interest]
    ensures interest !in InterestLabels ==> r == interest
  {
    LabelOr(InterestLabels, interest)
  }

  /**
   * The group-type and interest tables repeat the catalog's option labels;
   * the transportation table does too except for `car`, which it shortens.
   */
  lemma LabelsAgreeWithOptions(i: nat)
    ensures i < |GroupSizeDef.options.value| ==>
      GroupTypeLabel(GroupSizeDef.options.value[i].value) == GroupSizeDef.options.value[i].labelText
    ensures i < |InterestsDef.options.value| ==>
      InterestLabel(InterestsDef.options.value[i].value) == InterestsDef.options.value[i].labelText
    ensures i < |TransportationDef.options.value| && i != 1 ==>
      TransportationLabel(TransportationDef.options.value[i].value) == TransportationDef.options.value[i].labelText
    ensures TransportationLabel("car") == "車" != TransportationDef.options.value[1].labelText
  {
    GroupLabelsAgree(i);
    InterestLabelsAgree(i);
    TransportationLabelsAgree(i);
  }

  lemma GroupLabelsAgree(i: nat)
    ensures i < |GroupSizeDef.options.value| ==>
      GroupTypeLabel(GroupSizeDef.options.value[i].value) == GroupSizeDef.options.value[i].labelText
  {
  }

  lemma InterestLabelsAgree(i: nat)
    ensures i < |InterestsDef.options.value| ==>
      InterestLabel(InterestsDef.options.value[i].value) == InterestsDef.options.value[i].labelText
  {
  }

  lemma TransportationLabelsAgree(i: nat)
    ensures i < |TransportationDef.options.value| && i != 1 ==>
      TransportationLabel(TransportationDef.options.value[i].value) == TransportationDef.options.value[i].labelText
    ensures TransportationLabel("car") == "車" != TransportationDef.options.value[1].labelText
  {
  }

  /** Each label table knows exactly the values of its step's options; any other token passes through. */
  lemma UnknownTokensPassThrough(token: string)
    ensures (forall i :: 0 <= i < |GroupSizeDef.options.value| ==> GroupSizeDef.options.value[i].value != token)
      ==> GroupTypeLabel(token) == token
    ensures (forall i :: 0 <= i < |InterestsDef.options.value| ==> InterestsDef.options.value[i].value != token)
      ==> InterestLabel(token) == token
    ensures (forall i :: 0 <= i < |TransportationDef.options.value| ==> TransportationDef.options.value[i].value != token)
      ==> TransportationLabel(token) == token
  {
    UnknownGroupToken(token);
    UnknownInterestToken(token);
    UnknownTransportationToken(token);
  }

  lemma UnknownGroupToken(token: string)
    ensures (forall i :: 0 <= i < |GroupSizeDef.options.value| ==> GroupSizeDef.options.value[i].value != token)
      ==> GroupTypeLabel(token) == token
  {
    var g := GroupSizeDef.options.value;
    assert g[0].value == "solo" && g[1].value == "couple" && g[2].value == "family"
      && g[3].value == "friends" && g[4].value == "large_group";
  }

  lemma UnknownTransportationToken(token: string)
    ensures (forall i :: 0 <= i < |TransportationDef.options.value| ==> TransportationDef.options.value[i].value != token)
      ==> TransportationLabel(token) == token
  {
    var t := TransportationDef.options.value;
    assert t[0].value == "train" && t[1].value == "car" && t[2].value == "bus"
      && t[3].value == "plane" && t[4].value == "mixed" && t[5].value == "any";
  }

  lemma UnknownInterestToken(token: string)
    ensures (forall i :: 0 <= i < |InterestsDef.options.value| ==> InterestsDef.options.value[i].value != token)
      ==> InterestLabel(token) == token
  {
    var n := InterestsDef.options.value;
    assert n[0].value == "sightseeing" && n[1].value == "gourmet" && n[2].value == "onsen"
      && n[3].value == "nature" && n[4].value == "culture" && n[5].value == "shopping"
      && n[6].value == "nightlife" && n[7].value == "photography";
  }

  /** One row of the confirmation summary. */
  datatype SummaryLine = SummaryLine(heading: string, text: string)

  const BudgetHeading := "予算:"
  const GroupHeading := "人数:"
  const DurationHeading := "期間:"
  const TransportationHeading := "交通手段:"
  const InterestsHeading := "興味:"
  const DepartureHeading := "出発地:"

  /** The summary headings in the order the rows appear. */
  const Headings: seq<string> := [BudgetHeading, GroupHeading, DurationHeading,
    TransportationHeading, InterestsHeading, DepartureHeading]

  /** JavaScript truthiness of a number: neither 0 nor NaN. */
  predicate NumTruthy(x: Num) {
    x.Int? && x.n != 0
  }

  predicate BudgetShown(b: Option<Budget>) {
    b.Some? && (b.value.Custom? || NumTruthy(b.value.yen))
  }

  predicate DurationShown(d: Option<Num>) {
    d.Some? && NumTruthy(d.value)
  }

  predicate InterestsShown(xs: Option<seq<string>>) {
    xs.Some? && |xs.value| > 0
  }

  /** The budget cell: the custom sentinel as "その他", an amount as "<n>円". */
  function BudgetText(b: Budget): string
    requires b.Custom? || NumTruthy(b.yen)
  {
    if b.Custom? then "その他" else NatToString(b.yen.n) + "円"
  }

  /** The duration cell: one day as "日帰り", otherwise "<n>日間". */
  function DurationText(days: nat): string {
    if days == 1 then "日帰り" else NatToString(days) + "日間"
  }

  function InterestsText(xs: seq<string>): string {
    Join(Map(InterestLabel, xs), ", ")
  }

  /** A single row when `shown`, nothing otherwise. */
  function RowIf(shown: bool, heading: string, text: string): seq<SummaryLine> {
    if shown then [SummaryLine(heading, text)] else []
  }

  function BudgetRow(p: Preferences): seq<SummaryLine> {
    RowIf(BudgetShown(p.budget), BudgetHeading,
      if BudgetShown(p.budget) then BudgetText(p.budget.value) else "")
  }

  function GroupRow(p: Preferences): seq<SummaryLine> {
    RowIf(Truthy(p.groupType), GroupHeading, if p.groupType.Some? then GroupTypeLabel(p.groupType.value) else "")
  }

  function DurationRow(p: Preferences): seq<SummaryLine> {
    RowIf(DurationShown(p.duration), DurationHeading,
      if DurationShown(p.duration) then DurationText(p.duration.value.n) else "")
  }

  function TransportationRow(p: Preferences): seq<SummaryLine> {
    RowIf(Truthy(p.transportation), TransportationHeading,
      if p.transportation.Some? then TransportationLabel(p.transportation.value) else "")
  }

  function InterestsRow(p: Preferences): seq<SummaryLine> {
    RowIf(InterestsShown(p.interests), InterestsHeading,
      if p.interests.Some? then InterestsText(p.interests.value) else "")
  }

  function DepartureRow(p: Preferences): seq<SummaryLine> {
    RowIf(Truthy(p.departureLocation), DepartureHeading, p.departureLocation.GetOr(""))
  }

  /** The rows of the confirmation summary for `p`, in the fixed heading order. */
  function Summary(p: Preferences): (lines: seq<SummaryLine>)
    ensures |lines| <= |Headings|
    ensures p == NoPreferences ==> lines == []
  {
    BudgetRow(p) + GroupRow(p) + DurationRow(p) + TransportationRow(p) + InterestsRow(p) + DepartureRow(p)
  }

  /** `lines` has a row headed `heading`. */
  predicate HasRow(lines: seq<SummaryLine>, heading: string) {
    exists i :: 0 <= i < |lines| && lines[i].heading == heading
  }

  /** Every row of `lines` headed `heading` reads `text`. */
  predicate RowReads(lines: seq<SummaryLine>, heading: string, text: string) {
    forall i :: 0 <= i < |lines| && lines[i].heading == heading ==> lines[i].text == text
  }

  lemma HeadingsDistinct()
    ensures NoDuplicates(Headings)
  {
  }

  lemma RowsOfConcat(a: seq<SummaryLine>, b: seq<SummaryLine>, heading: string, text: string)
    ensures HasRow(a + b, heading) <==> HasRow(a, heading) || HasRow(b, heading)
    ensures RowReads(a + b, heading, text) <==> RowReads(a, heading, text) && RowReads(b, heading, text)
  {
    if HasRow(a + b, heading) {
      var i :| 0 <= i < |a + b| && (a + b)[i].heading == heading;
      if i >= |a| {
        assert b[i - |a|].heading == heading;
      }
    }
    if HasRow(a, heading) {
      var i :| 0 <= i < |a| && a[i].heading == heading;
      assert (a + b)[i].heading == heading;
    }
    if HasRow(b, heading) {
      var i :| 0 <= i < |b| && b[i].heading == heading;
      assert (a + b)[|a| + i].heading == heading;
    }
    if RowReads(a, heading, text) && RowReads(b, heading, text) {
      forall i | 0 <= i < |a + b| && (a + b)[i].heading == heading
        ensures (a + b)[i].text == text
      {
        if i >= |a| {
          assert (a + b)[i] == b[i - |a|];
        }
      }
    }
    if RowReads(a + b, heading, text) {
      forall i | 0 <= i < |a| && a[i].heading == heading
        ensures a[i].text == text
      {
        assert (a + b)[i] == a[i];
      }
      forall i | 0 <= i < |b| && b[i].heading == heading
        ensures b[i].text == text
      {
        assert (a + b)[|a| + i] == b[i];
      }
    }
  }

  lemma RowsOfRowIf(shown: bool, rowHeading: string, rowText: string, heading: string, text: string)
    ensures HasRow(RowIf(shown, rowHeading, rowText), heading) <==> shown && heading == rowHeading
    ensures RowReads(RowIf(shown, rowHeading, rowText), heading, text) <==>
      (shown && heading == rowHeading ==> rowText == text)
  {
    if shown && heading == rowHeading {
      assert RowIf(shown, rowHeading, rowText)[0].heading == heading;
    }
  }

  /** Splits a question about the whole summary into one per row. */
  lemma SummaryRowsSplit(p: Preferences, heading: string, text: string)
    ensures HasRow(Summary(p), heading) <==>
      || HasRow(BudgetRow(p), heading) || HasRow(GroupRow(p), heading)
      || HasRow(DurationRow(p), heading) || HasRow(TransportationRow(p), heading)
      || HasRow(InterestsRow(p), heading) || HasRow(DepartureRow(p), heading)
    ensures RowReads(Summary(p), heading, text) <==>
      && RowReads(BudgetRow(p), heading, text) && RowReads(GroupRow(p), heading, text)
      && RowReads(DurationRow(p), heading, text) && RowReads(TransportationRow(p), heading, text)
      && RowReads(InterestsRow(p), heading, text) && RowReads(DepartureRow(p), heading, text)
  {
    var a1 := BudgetRow(p);
    var a2 := a1 + GroupRow(p);
    var a3 := a2 + DurationRow(p);
    var a4 := a3 + TransportationRow(p);
    var a5 := a4 + InterestsRow(p);
    RowsOfConcat(a1, GroupRow(p), heading, text);
    RowsOfConcat(a2, DurationRow(p), heading, text);
    RowsOfConcat(a3, TransportationRow(p), heading, text);
    RowsOfConcat(a4, InterestsRow(p), heading, text);
    RowsOfConcat(a5, DepartureRow(p), heading, text);
  }

  /** A row is present exactly when its field is set to a truthy value. */
  lemma SummaryRows(p: Preferences)
    ensures HasRow(Summary(p), BudgetHeading) <==> BudgetShown(p.budget)
    ensures HasRow(Summary(p), GroupHeading) <==> Truthy(p.groupType)
    ensures HasRow(Summary(p), DurationHeading) <==> DurationShown(p.duration)
    ensures HasRow(Summary(p), TransportationHeading) <==> Truthy(p.transportation)
    ensures HasRow(Summary(p), InterestsHeading) <==> InterestsShown(p.interests)
    ensures HasRow(Summary(p), DepartureHeading) <==> Truthy(p.departureLocation)
  {
    HeadingsDistinct();
    forall h | h in Headings
      ensures HasRow(Summary(p), h) <==>
        || (BudgetShown(p.budget) && h == BudgetHeading)
        || (Truthy(p.groupType) && h == GroupHeading)
        || (DurationShown(p.duration) && h == DurationHeading)
        || (Truthy(p.transportation) && h == TransportationHeading)
        || (InterestsShown(p.interests) && h == InterestsHeading)
        || (Truthy(p.departureLocation) && h == DepartureHeading)
    {
      SummaryRowsSplit(p, h, "");
      RowsOfRowIf(BudgetShown(p.budget), BudgetHeading, if BudgetShown(p.budget) then BudgetText(p.budget.value) else "", h, "");
      RowsOfRowIf(Truthy(p.groupType), GroupHeading, if p.groupType.Some? then GroupTypeLabel(p.groupType.value) else "", h, "");
      RowsOfRowIf(DurationShown(p.duration), DurationHeading, if DurationShown(p.duration) then DurationText(p.duration.value.n) else "", h, "");
      RowsOfRowIf(Truthy(p.transportation), TransportationHeading, if p.transportation.Some? then TransportationLabel(p.transportation.value) else "", h, "");
      RowsOfRowIf(InterestsShown(p.interests), InterestsHeading, if p.interests.Some? then InterestsText(p.interests.value) else "", h, "");
      RowsOfRowIf(Truthy(p.departureLocation), DepartureHeading, p.departureLocation.GetOr(""), h, "");
    }
  }

  /** The custom budget reads "その他", with no digit in it. */
  lemma CustomBudgetRow(p: Preferences)
    requires p.budget == Some(Custom)
    ensures Summary(p)[0] == SummaryLine(BudgetHeading, "その他")
    ensures forall k :: 0 <= k < |Summary(p)[0].text| ==> !IsDigit(Summary(p)[0].text[k])
  {
  }

  /** A positive amount reads "<n>円", and `parseInt` of that text gives the amount back. */
  lemma AmountBudgetRow(p: Preferences, n: nat)
    requires p.budget == Some(Amount(Int(n))) && n > 0
    ensures Summary(p)[0] == SummaryLine(BudgetHeading, NatToString(n) + "円")
    ensures ParseInt(Some(Summary(p)[0].text)) == Int(n)
  {
    ParseIntOfRendering(n, "円");
  }

  /** A one-day duration reads "日帰り"; longer ones read "<n>日間" and parse back to n. */
  lemma DurationRowText(p: Preferences, n: nat)
    requires p.duration == Some(Int(n)) && n > 0
    ensures HasRow(Summary(p), DurationHeading)
    ensures RowReads(Summary(p), DurationHeading, if n == 1 then "日帰り" else NatToString(n) + "日間")
    ensures n != 1 ==> ParseInt(Some(DurationText(n))) == Int(n)
  {
    ParseIntOfRendering(n, "日間");
    SummaryRows(p);
    OnlyOwnRowReads(p, DurationHeading, DurationText(n));
  }

  /** Every row but the one under `heading` trivially reads `text` there, so the summary reads `text` iff that row does. */
  lemma OnlyOwnRowReads(p: Preferences, heading: string, text: string)
    requires heading in Headings
    ensures heading == GroupHeading ==> (RowReads(Summary(p), heading, text) <==> RowReads(GroupRow(p), heading, text))
    ensures heading == DurationHeading ==> (RowReads(Summary(p), heading, text) <==> RowReads(DurationRow(p), heading, text))
    ensures heading == TransportationHeading ==>
      (RowReads(Summary(p), heading, text) <==> RowReads(TransportationRow(p), heading, text))
    ensures heading == InterestsHeading ==> (RowReads(Summary(p), heading, text) <==> RowReads(InterestsRow(p), heading, text))
    ensures heading == DepartureHeading ==> (RowReads(Summary(p), heading, text) <==> RowReads(DepartureRow(p), heading, text))
  {
    SummaryRowsSplit(p, heading, text);
    HeadingsDistinct();
    OtherRowReads(BudgetShown(p.budget), BudgetHeading, if BudgetShown(p.budget) then BudgetText(p.budget.value) else "", heading, text);
    OtherRowReads(Truthy(p.groupType), GroupHeading, if p.groupType.Some? then GroupTypeLabel(p.groupType.value) else "", heading, text);
    OtherRowReads(DurationShown(p.duration), DurationHeading, if DurationShown(p.duration) then DurationText(p.duration.value.n) else "", heading, text);
    OtherRowReads(Truthy(p.transportation), TransportationHeading, if p.transportation.Some? then TransportationLabel(p.transportation.value) else "", heading, text);
    OtherRowReads(InterestsShown(p.interests), InterestsHeading, if p.interests.Some? then InterestsText(p.interests.value) else "", heading, text);
    OtherRowReads(Truthy(p.departureLocation), DepartureHeading, p.departureLocation.GetOr(""), heading, text);
  }

  /** A row under another heading says nothing about `heading`. */
  lemma OtherRowReads(shown: bool, rowHeading: string, rowText: string, heading: string, text: string)
    ensures heading != rowHeading ==> RowReads(RowIf(shown, rowHeading, rowText), heading, text)
  {
  }

  /** A truthy group type shows its label, or the token itself when it has none. */
  lemma GroupRowText(p: Preferences)
    requires Truthy(p.groupType)
    ensures HasRow(Summary(p), GroupHeading)
    ensures RowReads(Summary(p), GroupHeading, GroupTypeLabel(p.groupType.value))
  {
    SummaryRows(p);
    OnlyOwnRowReads(p, GroupHeading, GroupTypeLabel(p.groupType.value));
  }

  /** A truthy transportation shows its label, or the token itself when it has none. */
  lemma TransportationRowText(p: Preferences)
    requires Truthy(p.transportation)
    ensures HasRow(Summary(p), TransportationHeading)
    ensures RowReads(Summary(p), TransportationHeading, TransportationLabel(p.transportation.value))
  {
    SummaryRows(p);
    OnlyOwnRowReads(p, TransportationHeading, TransportationLabel(p.transportation.value));
  }

  /** A truthy departure point is shown as entered. */
  lemma DepartureRowText(p: Preferences)
    requires Truthy(p.departureLocation)
    ensures HasRow(Summary(p), DepartureHeading)
    ensures RowReads(Summary(p), DepartureHeading, p.departureLocation.value)
  {
    SummaryRows(p);
    OnlyOwnRowReads(p, DepartureHeading, p.departureLocation.value);
  }

  /**
   * A non-empty interests list shows the labels of its items joined by ", ":
   * one item reads as its label, and each further item adds ", " and its label.
   */
  lemma InterestsRowText(p: Preferences)
    requires InterestsShown(p.interests)
    ensures HasRow(Summary(p), InterestsHeading)
    ensures RowReads(Summary(p), InterestsHeading, Join(Map(InterestLabel, p.interests.value), ", "))
    ensures var xs := p.interests.value;
      |xs| == 1 ==> RowReads(Summary(p), InterestsHeading, InterestLabel(xs[0]))
    ensures var xs := p.interests.value;
      |xs| >= 2 ==> RowReads(Summary(p), InterestsHeading,
        Join(Map(InterestLabel, xs[..|xs| - 1]), ", ") + ", " + InterestLabel(xs[|xs| - 1]))
  {
    var xs := p.interests.value;
    SummaryRows(p);
    OnlyOwnRowReads(p, InterestsHeading, InterestsText(xs));
    InterestsTextShape(xs);
  }

  /** The interests cell of one item is its label; each further item adds ", " and its label. */
  lemma InterestsTextShape(xs: seq<string>)
    ensures |xs| == 1 ==> InterestsText(xs) == InterestLabel(xs[0])
    ensures |xs| >= 2 ==>
      InterestsText(xs) == Join(Map(InterestLabel, xs[..|xs| - 1]), ", ") + ", " + InterestLabel(xs[|xs| - 1])
  {
    if |xs| >= 2 {
      var init := xs[..|xs| - 1];
      assert Map(InterestLabel, xs) == Map(InterestLabel, init) + [InterestLabel(xs[|xs| - 1])];
      JoinAppend(Map(InterestLabel, init), InterestLabel(xs[|xs| - 1]), ", ");
    }
  }

  /** An empty interests list leaves no interests row. */
  lemma EmptyInterestsOmitted(p: Preferences)
    requires p.interests == Some([])
    ensures !HasRow(Summary(p), InterestsHeading)
  {
    SummaryRows(p);
  }
}

=== FILE: hearing_types.dfy ===
/**
 * The records of the guided hearing: steps and their options, the
 * accumulated preferences, and one hearing session. Optional fields of the
 * TypeScript records are `Option`s; `None` is `undefined`.
 */
module HearingTypes {
  import opened Wrappers
  import opened Numbers

  /** The budget answer: a yen amount from `parseInt`, or the `'custom'` sentinel. */
  datatype Budget = Amount(yen: Num) | Custom

  datatype Preferences = Preferences(
    budget: Option<Budget>,
    groupType: Option<string>,
    groupSize: Option<nat>,
    duration: Option<Num>,
    transportation: Option<string>,
    interests: Option<seq<string>>,
    departureLocation: Option<string>)

  /** The `{}` a session starts with. */
  const NoPreferences := Preferences(None, None, None, None, None, None, None)

  /** The fields of `Preferences`, used to state which fields an answer may touch. */
  datatype Field = BudgetField | GroupTypeField | GroupSizeField | DurationField
                 | TransportationField | InterestsField | DepartureField

  /** `p` and `q` hold the same value in field `f`. */
  predicate Agree(p: Preferences, q: Preferences, f: Field) {
    match f
    case BudgetField => p.budget == q.budget
    case GroupTypeField => p.groupType == q.groupType
    case GroupSizeField => p.groupSize == q.groupSize
    case DurationField => p.duration == q.duration
    case TransportationField => p.transportation == q.transportation
    case InterestsField => p.interests == q.interests
    case DepartureField => p.departureLocation == q.departureLocation
  }

  datatype StepType = Question | Confirmation | Result

  /** `labelText` is the option's display label (`label` is a Dafny keyword). */
  datatype HearingOption = HearingOption(id: string, labelText: string, value: string, nextStep: Option<string>)

  datatype HearingStep = HearingStep(
    id: string,
    stepType: StepType,
    question: string,
    options: Option<seq<HearingOption>>,
    required: bool,
    nextStep: Option<string>)

  /** One run of the wizard; `id` and `startedAt` come from the clock and are opaque here. */
  datatype HearingSession = HearingSession(
    id: string,
    currentStep: string,
    preferences: Preferences,
    completedSteps: seq<string>,
    startedAt: string,
    completed: bool)
}

=== FILE: interactive_hearing.dfy ===
/**
 * The hearing session state machine: the initial session, the preference
 * accumulator behind `handleAnswer`, and the advance behind `handleNext`,
 * applied as sequential pure updates of an immutable session.
 */
module InteractiveHearing {
  import opened Wrappers
  import opened Numbers
  import opened Lists
  import opened HearingTypes
  import opened HearingFlow

  /** The session state together with the component's `isProcessing` flag. */
  datatype HearingState = HearingState(session: HearingSession, processing: bool)

  /** The state after `handleNext`, and the preferences handed to `onComplete`, if any. */
  datatype Advance = Advance(state: HearingState, handoff: Option<Preferences>)

  /** Index of the confirmation step on the default path. */
  const ConfirmationRank: nat := |DefaultPath| - 2

  /**
   * The sessions the machine can be in: the completed steps are exactly the
   * first steps of the default path, the current step is the next one, and
   * only the confirmation step can carry the completed flag.
   */
  predicate Reachable(s: HearingSession) {
    var n := |s.completedSteps|;
    && n <= ConfirmationRank
    && s.completedSteps == DefaultPath[..n]
    && s.currentStep == DefaultPath[n]
    && (s.completed ==> s.currentStep == ConfirmationStep)
  }

  /** The session created when guided hearing starts; `id` and `startedAt` come from the clock. */
  function InitialSession(id: string, startedAt: string): (s: HearingSession)
    ensures s.id == id && s.startedAt == startedAt
    ensures s.currentStep == Welcome && s.preferences == NoPreferences
    ensures s.completedSteps == [] && !s.completed
    ensures Reachable(s)
  {
    HearingSession(id, Welcome, NoPreferences, [], startedAt, false)
  }

  function InitialState(id: string, startedAt: string): HearingState {
    HearingState(InitialSession(id, startedAt), false)
  }

  /** The fixed headcount policy for each group type. */
  const Headcount: map<string, nat> :=
    map["solo" := 1, "couple" := 2, "family" := 4, "friends" := 5, "large_group" := 8]

  /** The fields of the preferences an answer to `stepId` may write. */
  function OwnedFields(stepId: string): set<Field> {
    match stepId
    case "budget" => {BudgetField}
    case "group_size" => {GroupTypeField, GroupSizeField}
    case "duration" => {DurationField}
    case "transportation" => {TransportationField}
    case "interests" => {InterestsField}
    case "departure_location" => {DepartureField}
    case _ => {}
  }

  /** The headcount chain: a known group type sets its headcount, any other keeps `previous`. */
  function GroupSizeFor(groupType: Option<string>, previous: Option<nat>): (r: Option<nat>)
    ensures groupType.Some? && groupType.value in Headcount ==> r == Some(Headcount[groupType.value])
    ensures !(groupType.Some? && groupType.value in Headcount) ==> r == previous
  {
    if groupType == Some("solo") then Some(1)
    else if groupType == Some("couple") then Some(2)
    else if groupType == Some("family") then Some(4)
    else if groupType == Some("friends") then Some(5)
    else if groupType == Some("large_group") then Some(8)
    else previous
  }

  /**
   * `handleAnswer`'s preference update: the answer to `stepId` writes the
   * fields that step owns and no other; an answer to welcome, confirmation
   * or an unknown id changes nothing.
   */
  function ApplyAnswer(p: Preferences, stepId: string, values: seq<string>): (q: Preferences)
    ensures forall f :: f !in OwnedFields(stepId) ==> Agree(p, q, f)
    ensures OwnedFields(stepId) == {} ==> q == p
    ensures stepId == BudgetStep ==>
      q.budget == Some(if First(values) == Some("custom") then Custom else Amount(ParseInt(First(values))))
    ensures stepId == GroupSizeStep ==> q.groupType == First(values)
    ensures stepId == GroupSizeStep && |values| > 0 && values[0] in Headcount ==>
      q.groupSize == Some(Headcount[values[0]])
    ensures stepId == GroupSizeStep && !(|values| > 0 && values[0] in Headcount) ==>
      q.groupSize == p.groupSize
    ensures stepId == DurationStep ==>
      q.duration == Some(if First(values) == Some("5+") then Int(5) else ParseInt(First(values)))
    ensures stepId == TransportationStep ==> q.transportation == First(values)
    ensures stepId == InterestsStep ==> q.interests == Some(values)
    ensures stepId == DepartureStep ==> q.departureLocation == First(values)
  {
    var first := First(values);
    match stepId
    case "budget" =>
      p.(budget := Some(if first == Some("custom") then Custom else Amount(ParseInt(first))))
    case "group_size" =>
      p.(groupType := first, groupSize := GroupSizeFor(first, p.groupSize))
    case "duration" =>
      p.(duration := Some(if first == Some("5+") then Int(5) else ParseInt(first)))
    case "transportation" => p.(transportation := first)
    case "interests" => p.(interests := Some(values))
    case "departure_location" => p.(departureLocation := first)
    case _ => p
  }

  /** `handleAnswer`: only the preferences change. */
  function HandleAnswer(s: HearingSession, stepId: string, values: seq<string>): (s': HearingSession)
    ensures s'.id == s.id && s'.startedAt == s.startedAt
    ensures s'.currentStep == s.currentStep && s'.completedSteps == s.completedSteps
    ensures s'.completed == s.completed
    ensures s'.preferences == ApplyAnswer(s.preferences, stepId, values)
  {
    s.(preferences := ApplyAnswer(s.preferences, stepId, values))
  }

  /**
   * `handleNext`: on confirmation, mark the session completed and hand the
   * preferences over; elsewhere move to the default successor and record the
   * step left; with no successor, or off the catalog, do nothing.
   */
  function HandleNext(st: HearingState): (r: Advance)
    ensures st.session.currentStep !in Catalog ==> r == Advance(st, None)
    ensures st.session.currentStep == ConfirmationStep ==>
      && r.state.session == st.session.(completed := true)
      && r.state.processing
      && r.handoff == Some(st.session.preferences)
    ensures st.session.currentStep in Catalog && st.session.currentStep != ConfirmationStep ==>
      && r.handoff == None
      && r.state.processing == st.processing
      && r.state.session.preferences == st.session.preferences
      && r.state.session.completed == st.session.completed
      && r.state.session.id == st.session.id
      && r.state.session.startedAt == st.session.startedAt
    ensures st.session.currentStep != ConfirmationStep && GetNextStep(st.session.currentStep, None).Some? ==>
      && r.state.session.currentStep == GetNextStep(st.session.currentStep, None).value
      && r.state.session.completedSteps == st.session.completedSteps + [st.session.currentStep]
    ensures st.session.currentStep != ConfirmationStep && GetNextStep(st.session.currentStep, None).None? ==>
      r == Advance(st, None)
  {
    var s := st.session;
    if s.currentStep !in Catalog then Advance(st, None)
    else if s.currentStep == ConfirmationStep then
      Advance(HearingState(s.(completed := true), true), Some(s.preferences))
    else
      match GetNextStep(s.currentStep, None)
      case None => Advance(st, None)
      case Some(next) =>
        Advance(st.(session := s.(currentStep := next, completedSteps := s.completedSteps + [s.currentStep])), None)
  }

  /** One user-visible action on the session. */
  datatype Event = Answer(stepId: string, values: seq<string>) | Next

  function Apply(st: HearingState, e: Event): HearingState {
    match e
    case Answer(stepId, values) => st.(session := HandleAnswer(st.session, stepId, values))
    case Next => HandleNext(st).state
  }

  /** The state after the actions `events`, in order. */
  function Run(st: HearingState, events: seq<Event>): HearingState
    decreases |events|
  {
    if |events| == 0 then st else Run(Apply(st, events[0]), events[1..])
  }

  /** Advancing a reachable session keeps it reachable. */
  lemma NextKeepsReachable(st: HearingState)
    requires Reachable(st.session)
    ensures Reachable(HandleNext(st).state.session)
  {
    var s := st.session;
    var n := |s.completedSteps|;
    CatalogShape();
    if s.currentStep != ConfirmationStep {
      SuccessorRank(n);
      assert DefaultPath[..n] + [DefaultPath[n]] == DefaultPath[..n + 1];
    }
  }

  /** Any actions from a reachable state leave it reachable. */
  lemma {:induction false} RunKeepsReachable(st: HearingState, events: seq<Event>)
    requires Reachable(st.session)
    ensures Reachable(Run(st, events).session)
    decreases |events|
  {
    if |events| > 0 {
      if events[0].Next? {
        NextKeepsReachable(st);
      }
      RunKeepsReachable(Apply(st, events[0]), events[1..]);
    }
  }

  /**
   * Whatever is answered and however often the session advances, no step is
   * recorded twice, the current step is never one already left, the result
   * step is never entered, and a completed session has left exactly the
   * steps before confirmation.
   */
  lemma StepsVisitedOnce(id: string, startedAt: string, events: seq<Event>)
    ensures var s := Run(InitialState(id, startedAt), events).session;
      && NoDuplicates(s.completedSteps)
      && s.currentStep !in s.completedSteps
      && s.currentStep != ResultStep
      && (s.completed ==> s.completedSteps == DefaultPath[..ConfirmationRank])
  {
    RunKeepsReachable(InitialState(id, startedAt), events);
    var s := Run(InitialState(id, startedAt), events).session;
    var n := |s.completedSteps|;
    CatalogShape();
    assert s.currentStep == DefaultPath[n];
  }

  /** `n` consecutive `Next` actions. */
  function Nexts(n: nat): (evs: seq<Event>)
    ensures |evs| == n && forall i :: 0 <= i < n ==> evs[i] == Next
  {
    if n == 0 then [] else [Next] + Nexts(n - 1)
  }

  /** One advance below confirmation moves one step and keeps the preferences and the open state. */
  lemma NextBeforeConfirmation(st: HearingState)
    requires Reachable(st.session) && !st.session.completed
    requires |st.session.completedSteps| < ConfirmationRank
    ensures var s' := HandleNext(st).state.session;
      Reachable(s') && |s'.completedSteps| == |st.session.completedSteps| + 1 && !s'.completed
      && s'.preferences == st.session.preferences
  {
    var s := st.session;
    PathIdsDistinct();
    CatalogKeys();
    SuccessorRank(|s.completedSteps|);
    assert s.currentStep != ConfirmationStep && s.currentStep in Catalog;
    NextKeepsReachable(st);
  }

  lemma {:induction false} RunNexts(st: HearingState, n: nat)
    requires Reachable(st.session) && !st.session.completed
    requires |st.session.completedSteps| + n <= ConfirmationRank
    ensures var s := Run(st, Nexts(n)).session;
      Reachable(s) && |s.completedSteps| == |st.session.completedSteps| + n && !s.completed
      && s.preferences == st.session.preferences
    decreases n
  {
    if n > 0 {
      NextBeforeConfirmation(st);
      var st1 := HandleNext(st).state;
      assert Nexts(n)[0] == Next && Nexts(n)[1..] == Nexts(n - 1);
      assert Run(st, Nexts(n)) == Run(st1, Nexts(n - 1));
      RunNexts(st1, n - 1);
    }
  }

  /**
   * Seven advances from a fresh session reach confirmation having left the
   * seven steps before it; the eighth completes the session and hands the
   * (still empty) preferences over without moving.
   */
  lemma AdvancingCompletesHearing(id: string, startedAt: string)
    ensures var st := Run(InitialState(id, startedAt), Nexts(ConfirmationRank));
      && st.session.currentStep == ConfirmationStep
      && st.session.completedSteps == DefaultPath[..ConfirmationRank]
      && !st.session.completed
      && HandleNext(st).state.session.completed
      && HandleNext(st).state.session.currentStep == ConfirmationStep
      && HandleNext(st).handoff == Some(NoPreferences)
  {
    RunNexts(InitialState(id, startedAt), ConfirmationRank);
  }

  /** Answering a catalog option of a question step makes that step count as completed. */
  lemma AnswerCompletesStep(p: Preferences, k: nat, i: nat)
    requires k < |Steps| && Steps[k].options.Some? && i < |Steps[k].options.value|
    ensures IsStepCompleted(Steps[k].id, ApplyAnswer(p, Steps[k].id, [Steps[k].options.value[i].value]))
  {
    StepDefinitions();
  }

  /** `parseInt` already reads `'5+'` as 5, so the special case agrees with it. */
  lemma FivePlusAgreesWithParseInt()
    ensures ParseInt(Some("5+")) == Int(5)
  {
    ParseIntOfRendering(5, "+");
    assert NatToString(5) + "+" == "5+";
  }

  /** Every duration option yields its number of days, 1 to 5, in option order. */
  lemma DurationOptionsParse(p: Preferences, i: nat)
    requires i < |DurationDef.options.value|
    ensures ApplyAnswer(p, DurationStep, [DurationDef.options.value[i].value]).duration == Some(Int(i + 1))
  {
    FivePlusAgreesWithParseInt();
    var v := DurationDef.options.value[i].value;
    if i < 4 {
      ParseIntOfRendering(i + 1, "");
      assert NatToString(i + 1) + "" == v;
    }
  }

  /** Every numeric budget option yields its yen amount; `'custom'` yields the sentinel. */
  lemma BudgetOptionsParse(p: Preferences)
    ensures ApplyAnswer(p, BudgetStep, ["5000"]).budget == Some(Amount(Int(5000)))
    ensures ApplyAnswer(p, BudgetStep, ["10000"]).budget == Some(Amount(Int(10000)))
    ensures ApplyAnswer(p, BudgetStep, ["20000"]).budget == Some(Amount(Int(20000)))
    ensures ApplyAnswer(p, BudgetStep, ["30000"]).budget == Some(Amount(Int(30000)))
    ensures ApplyAnswer(p, BudgetStep, ["custom"]).budget == Some(Custom)
  {
    BudgetOptionReads(p, "5000", "5", 5);
    TensOfThousands(p, '1', 1);
    TensOfThousands(p, '2', 2);
    TensOfThousands(p, '3', 3);
  }

  /** The option `d0000` records `d` tens of thousands. */
  lemma TensOfThousands(p: Preferences, d: char, n: nat)
    requires IsDigit(d) && DigitValue(d) == n
    ensures ApplyAnswer(p, BudgetStep, [[d, '0', '0', '0', '0']]).budget == Some(Amount(Int(n * 10000)))
  {
    TwoDigitLead(d, n);
    assert [d, '0', '0', '0', '0'] == [d, '0'] + "000";
    BudgetOptionReads(p, [d, '0', '0', '0', '0'], [d, '0'], 10 * n);
  }

  /** A budget option made of a digit string and three zeros records a thousand times the string's value. */
  lemma BudgetOptionReads(p: Preferences, option: string, lead: string, n: nat)
    requires |lead| > 0 && AllDigits(lead) && DecimalValue(lead) == n
    requires option == lead + "000"
    ensures ApplyAnswer(p, BudgetStep, [option]).budget == Some(Amount(Int(n * 1000)))
  {
    ThousandsParse(lead, n);
    assert (lead + "000")[|lead|] == '0';
  }

  /** A digit followed by `0` reads as ten times the digit. */
  lemma TwoDigitLead(d: char, n: nat)
    requires IsDigit(d) && DigitValue(d) == n
    ensures AllDigits([d, '0']) && DecimalValue([d, '0']) == 10 * n
  {
    AppendDigit([d], '0');
    assert [d] + ['0'] == [d, '0'];
    assert [d][..0] == [];
  }

  /** A digit string followed by three zeros reads as a thousand times its value. */
  lemma ThousandsParse(lead: string, n: nat)
    requires |lead| > 0 && AllDigits(lead) && DecimalValue(lead) == n
    ensures ParseInt(Some(lead + "000")) == Int(n * 1000)
  {
    AppendDigit(lead, '0');
    AppendDigit(lead + "0", '0');
    AppendDigit(lead + "00", '0');
    assert lead + "0" + ['0'] == lead + "00";
    assert lead + "00" + ['0'] == lead + "000";
    DigitsParse(lead + "000");
  }

  /** `Object.keys(hearingSteps).length - 1`: the step count without `result`. */
  const TotalSteps: nat := |DefaultPath| - 1

  /** `Object.keys(hearingSteps).indexOf(currentStep) + 1`: 0 for an id off the catalog. */
  function ProgressIndex(s: HearingSession): (k: nat)
    ensures s.currentStep !in DefaultPath ==> k == 0
    ensures s.currentStep in DefaultPath ==>
      0 < k <= |DefaultPath| && DefaultPath[k - 1] == s.currentStep
      && forall j :: 0 <= j < k - 1 ==> DefaultPath[j] != s.currentStep
  {
    if s.currentStep in DefaultPath then IndexOf(DefaultPath, s.currentStep) + 1 else 0
  }

  /** In a reachable session the progress index is the number of completed steps plus one and never passes the total. */
  lemma ProgressWithinTotal(s: HearingSession)
    requires Reachable(s)
    ensures ProgressIndex(s) == |s.completedSteps| + 1
    ensures 1 <= ProgressIndex(s) <= TotalSteps
  {
    PathIdsDistinct();
  }
}

=== FILE: lists.dfy ===
/** Small list utilities shared by the hearing components. */
module Lists {

  predicate NoDuplicates<T(==)>(xs: seq<T>) {
    forall i, j :: 0 <= i < j < |xs| ==> xs[i] != xs[j]
  }

  /** The position of the first occurrence of `x` in `xs` (`indexOf`). */
  function IndexOf<T(==)>(xs: seq<T>, x: T): (k: nat)
    requires x in xs
    ensures k < |xs| && xs[k] == x
    ensures forall j :: 0 <= j < k ==> xs[j] != x
  {
    if xs[0] == x then 0 else 1 + IndexOf(xs[1..], x)
  }

  /** `xs.filter(v => v !== x)`: every occurrence of `x` removed, order kept. */
  function RemoveAll<T(==)>(xs: seq<T>, x: T): (r: seq<T>)
    ensures multiset(r) == multiset(xs)[x := 0]
    ensures x !in xs ==> r == xs
    ensures |xs| == 1 ==> r == (if xs[0] == x then [] else xs)
  {
    if |xs| == 0 then []
    else
      assert xs == [xs[0]] + xs[1..];
      if xs[0] == x then RemoveAll(xs[1..], x) else [xs[0]] + RemoveAll(xs[1..], x)
  }

  /** Filtering a concatenation filters each part, in order: the kept elements keep their order. */
  lemma {:induction false} RemoveAllAppend<T>(a: seq<T>, b: seq<T>, x: T)
    ensures RemoveAll(a + b, x) == RemoveAll(a, x) + RemoveAll(b, x)
    decreases |a|
  {
    if |a| == 0 {
      assert a + b == b;
    } else {
      assert (a + b)[0] == a[0] && (a + b)[1..] == a[1..] + b;
      RemoveAllAppend(a[1..], b, x);
    }
  }

  /** `xs.join(sep)`. */
  function Join(xs: seq<string>, sep: string): (r: string)
    ensures |xs| == 0 ==> r == ""
    ensures |xs| == 1 ==> r == xs[0]
  {
    if |xs| == 0 then "" else if |xs| == 1 then xs[0] else xs[0] + sep + Join(xs[1..], sep)
  }

  /** Joining one more element appends the separator and the element. */
  lemma {:induction false} JoinAppend(xs: seq<string>, y: string, sep: string)
    requires |xs| > 0
    ensures Join(xs + [y], sep) == Join(xs, sep) + sep + y
    decreases |xs|
  {
    if |xs| == 1 {
      assert (xs + [y])[1..] == [y];
    } else {
      assert (xs + [y])[1..] == xs[1..] + [y];
      JoinAppend(xs[1..], y, sep);
    }
  }

  /** `xs.map(f)`. */
  function Map<A, B>(f: A -> B, xs: seq<A>): (r: seq<B>)
    ensures |r| == |xs|
    ensures forall i :: 0 <= i < |xs| ==> r[i] == f(xs[i])
  {
    if |xs| == 0 then [] else [f(xs[0])] + Map(f, xs[1..])
  }
}

=== FILE: numbers.dfy ===
/**
 * The fragment of JavaScript number handling the hearing flow relies on:
 * `parseInt` of an answer token and the decimal rendering of a whole number
 * inside a template literal.
 */
module Numbers {
  import opened Wrappers

  /** A number produced by `parseInt`: a whole value or `NaN`. */
  datatype Num = Int(n: nat) | NaN

  predicate IsDigit(c: char) {
    '0' <= c <= '9'
  }

  predicate AllDigits(s: string) {
    forall i :: 0 <= i < |s| ==> IsDigit(s[i])
  }

  function DigitValue(c: char): (d: nat)
    requires IsDigit(c)
    ensures d < 10
  {
    (c as int - '0' as int) as nat
  }

  function DigitChar(d: nat): (c: char)
    requires d < 10
    ensures IsDigit(c) && DigitValue(c) == d
  {
    ('0' as int + d) as char
  }

  /** The value of a string of decimal digits, most significant digit first. */
  function DecimalValue(s: string): nat
    requires AllDigits(s)
  {
    if |s| == 0 then 0 else DecimalValue(s[..|s| - 1]) * 10 + DigitValue(s[|s| - 1])
  }

  /** The longest prefix of `s` made of decimal digits. */
  function LeadingDigits(s: string): (r: string)
    ensures r <= s && AllDigits(r)
    ensures |r| < |s| ==> !IsDigit(s[|r|])
  {
    if |s| == 0 || !IsDigit(s[0]) then "" else [s[0]] + LeadingDigits(s[1..])
  }

  /**
   * `parseInt(s)` for a string without leading white space, sign or radix
   * prefix: the value of the leading decimal digits, or `NaN` when there are
   * none. `None` is `parseInt(undefined)`, which is `NaN`.
   */
  function ParseInt(s: Option<string>): (r: Num)
    ensures r.NaN? <==> s.None? || |s.value| == 0 || !IsDigit(s.value[0])
  {
    if s.None? then NaN
    else
      var digits := LeadingDigits(s.value);
      if |digits| == 0 then NaN else Int(DecimalValue(digits))
  }

  /** The decimal rendering of a whole number, as `${n}` produces it. */
  function NatToString(n: nat): (s: string)
    ensures |s| > 0 && AllDigits(s)
    ensures |s| > 1 ==> s[0] != '0'
    decreases n
  {
    if n < 10 then [DigitChar(n)] else NatToString(n / 10) + [DigitChar(n % 10)]
  }

  lemma {:induction false} DecimalValueOfRendering(n: nat)
    ensures DecimalValue(NatToString(n)) == n
    decreases n
  {
    var s := NatToString(n);
    if n >= 10 {
      DecimalValueOfRendering(n / 10);
      assert s[..|s| - 1] == NatToString(n / 10);
    }
  }

  lemma {:induction false} LeadingDigitsOfDigits(s: string, rest: string)
    requires AllDigits(s)
    requires |rest| == 0 || !IsDigit(rest[0])
    ensures LeadingDigits(s + rest) == s
    decreases |s|
  {
    if |s| > 0 {
      assert (s + rest)[1..] == s[1..] + rest;
      LeadingDigitsOfDigits(s[1..], rest);
    }
  }

  lemma AppendDigit(s: string, c: char)
    requires AllDigits(s) && IsDigit(c)
    ensures AllDigits(s + [c]) && DecimalValue(s + [c]) == DecimalValue(s) * 10 + DigitValue(c)
  {
    assert (s + [c])[..|s|] == s;
  }

  /**
   * `parseInt` of a run of digits followed by nothing or by a non-digit reads
   * the value of that run and ignores the rest.
   */
  lemma ParseIntOfDigitRun(digits: string, rest: string)
    requires |digits| > 0 && AllDigits(digits)
    requires |rest| == 0 || !IsDigit(rest[0])
    ensures ParseInt(Some(digits + rest)) == Int(DecimalValue(digits))
  {
    LeadingDigitsOfDigits(digits, rest);
  }

  /** A non-empty digit string reads as its decimal value. */
  lemma DigitsParse(s: string)
    requires |s| > 0 && AllDigits(s)
    ensures ParseInt(Some(s)) == Int(DecimalValue(s))
  {
    LeadingDigitsOfDigits(s, "");
    assert s + "" == s;
  }

  /**
   * `parseInt` reads back the rendering of any whole number, also when the
   * rendering is followed by a non-digit suffix such as the `+` of `'5+'`.
   */
  lemma ParseIntOfRendering(n: nat, rest: string)
    requires |rest| == 0 || !IsDigit(rest[0])
    ensures ParseInt(Some(NatToString(n) + rest)) == Int(n)
  {
    LeadingDigitsOfDigits(NatToString(n), rest);
    DecimalValueOfRendering(n);
  }
}

=== FILE: wizard.dfy ===
/**
 * The hearing component and the step component it renders, composed as
 * the page runs them: a click on an option reports the answer, and a
 * single-select click then advances. The step component is rendered at a
 * fixed position without a key, so its local selection survives a change
 * of step; `Act` takes that choice as a parameter so that the behaviour as
 * written (`ActAsWritten`) and with the selection reset per step (`Act`)
 * can be compared.
 */
module Wizard {
  import opened Wrappers
  import opened Lists
  import opened HearingTypes
  import opened HearingFlow
  import opened InteractiveHearing
  import opened HearingStepView

  datatype WizardState = WizardState(hearing: HearingState, view: StepView)

  function Start(id: string, startedAt: string): WizardState {
    WizardState(InitialState(id, startedAt), FreshView)
  }

  /** The controls of the rendered step: an option button, "next", "skip", and the confirmation button. */
  datatype Action = Pick(index: nat) | Proceed | Skip | Confirm

  /** The step on screen: none while processing or for an id off the catalog. */
  function Shown(w: WizardState): Option<HearingStep> {
    var cur := w.hearing.session.currentStep;
    if w.hearing.processing || cur !in Catalog then None else Some(Catalog[cur])
  }

  /** The step on screen is the session's current step, and one is shown unless processing or off the declared path. */
  lemma ShownStep(w: WizardState)
    ensures Shown(w).None? <==> w.hearing.processing || w.hearing.session.currentStep !in DefaultPath
    ensures Shown(w).Some? ==> Shown(w).value.id == w.hearing.session.currentStep
  {
    CatalogShape();
  }

  /** The local selection after a move from step `before` to step `after`. */
  function ViewAfter(view: StepView, before: string, after: string, resetOnStepChange: bool): StepView {
    if resetOnStepChange && before != after then FreshView else view
  }

  /** `onNext` from the step on screen, keeping or resetting the local selection. */
  function AdvanceFrom(w: WizardState, view: StepView, resetOnStepChange: bool): WizardState {
    var h := HandleNext(w.hearing).state;
    WizardState(h, ViewAfter(view, w.hearing.session.currentStep, h.session.currentStep, resetOnStepChange))
  }

  /**
   * One action on the rendered step. Option buttons exist only on question
   * steps with options; "next" and "skip" only when shown and let through by
   * the guard; the confirmation button only on the confirmation step. The
   * step component is never disabled while it is on screen.
   */
  function Act(w: WizardState, a: Action, resetOnStepChange: bool): (r: WizardState)
    ensures Shown(w).None? ==> r == w
    ensures r.hearing.session.id == w.hearing.session.id
    ensures r.hearing.session.startedAt == w.hearing.session.startedAt
    ensures a.Confirm? && Shown(w).Some? && Shown(w).value.stepType != Confirmation ==> r == w
  {
    match Shown(w)
    case None => w
    case Some(step) =>
      match a
      case Pick(i) =>
        if step.stepType == Confirmation || step.options.None? || i >= |step.options.value| then w
        else
          var sel := SelectOption(step, w.view, step.options.value[i], false).value;
          var answered := w.hearing.(session := HandleAnswer(w.hearing.session, step.id, sel.answer));
          var w' := WizardState(answered, sel.view);
          if sel.autoAdvance then AdvanceFrom(w', sel.view, resetOnStepChange) else w'
      case Proceed =>
        if step.stepType != Confirmation && ProceedShown(step, w.view) && NextAdvances(step)
        then AdvanceFrom(w, w.view, resetOnStepChange) else w
      case Skip =>
        if step.stepType != Confirmation && SkipShown(step, w.view) && NextAdvances(step)
        then AdvanceFrom(w, w.view, resetOnStepChange) else w
      case Confirm =>
        if step.stepType == Confirmation then AdvanceFrom(w, w.view, resetOnStepChange) else w
  }

  function ActAsWritten(w: WizardState, a: Action): WizardState {
    Act(w, a, false)
  }

  function RunActions(w: WizardState, actions: seq<Action>, resetOnStepChange: bool): WizardState
    decreases |actions|
  {
    if |actions| == 0 then w else RunActions(Act(w, actions[0], resetOnStepChange), actions[1..], resetOnStepChange)
  }

  /** `v` is the value of one of the interests step's options. */
  predicate IsInterestValue(v: string) {
    exists i :: 0 <= i < |InterestsDef.options.value| && InterestsDef.options.value[i].value == v
  }

  /** The interests preference, if set, lists interest options only, each once. */
  predicate InterestsWellFormed(p: Preferences) {
    p.interests.Some? ==>
      NoDuplicates(p.interests.value) && forall k :: 0 <= k < |p.interests.value| ==> IsInterestValue(p.interests.value[k])
  }

  /** What the corrected composition keeps true between actions. */
  predicate Consistent(w: WizardState) {
    var s := w.hearing.session;
    && Reachable(s)
    && NoDuplicates(w.view.selected)
    && (forall k :: 0 <= k < |w.view.selected| ==> IsInterestValue(w.view.selected[k]))
    && (s.currentStep != InterestsStep ==> w.view.selected == [])
    && InterestsWellFormed(s.preferences)
  }

  lemma ConfirmationKind(id: string)
    requires id in Catalog
    ensures Catalog[id].stepType == Confirmation <==> id == ConfirmationStep
    ensures Catalog[id].id == id
  {
    CatalogKeys();
    PathIdsDistinct();
    var k := Rank(id);
    assert Catalog[id] == Steps[k];
  }

  /** Only the interests answer writes the interests preference. */
  lemma OnlyInterestsWritesInterests(p: Preferences, stepId: string, values: seq<string>)
    requires stepId != InterestsStep
    ensures ApplyAnswer(p, stepId, values).interests == p.interests
  {
    assert InterestsField !in OwnedFields(stepId);
    assert Agree(p, ApplyAnswer(p, stepId, values), InterestsField);
  }

  /** Advancing from a reachable step other than confirmation lands on a different step. */
  lemma AdvanceMoves(st: HearingState)
    requires Reachable(st.session) && st.session.currentStep != ConfirmationStep
    ensures HandleNext(st).state.session.currentStep != st.session.currentStep
  {
    var n := |st.session.completedSteps|;
    SuccessorRank(n);
    PathIdsDistinct();
  }

  lemma ToggleKeepsInterestValues(selected: seq<string>, v: string)
    requires forall k :: 0 <= k < |selected| ==> IsInterestValue(selected[k])
    requires IsInterestValue(v)
    ensures forall k :: 0 <= k < |Toggle(selected, v)| ==> IsInterestValue(Toggle(selected, v)[k])
  {
    var r := Toggle(selected, v);
    forall k | 0 <= k < |r|
      ensures IsInterestValue(r[k])
    {
      if r[k] != v {
        assert r[k] in selected;
      }
    }
  }

  lemma {:induction false} ActKeepsConsistent(w: WizardState, a: Action)
    requires Consistent(w)
    ensures Consistent(Act(w, a, true))
  {
    var s := w.hearing.session;
    var cur := s.currentStep;
    if Shown(w).Some? {
      var step := Shown(w).value;
      ConfirmationKind(cur);
      NextKeepsReachable(w.hearing);
      match a
      case Pick(i) =>
        if !(step.stepType == Confirmation || step.options.None? || i >= |step.options.value|) {
          var opt := step.options.value[i];
          var sel := SelectOption(step, w.view, opt, false).value;
          var answered := w.hearing.(session := HandleAnswer(s, step.id, sel.answer));
          NextKeepsReachable(answered);
          if cur == InterestsStep {
            assert step == InterestsDef;
            assert IsInterestValue(opt.value);
            ToggleKeepsInterestValues(w.view.selected, opt.value);
            ToggleKeepsNoDuplicates(w.view.selected, opt.value);
          } else {
            OnlyInterestsWritesInterests(s.preferences, cur, sel.answer);
            AdvanceMoves(answered);
          }
        }
      case Proceed =>
        if step.stepType != Confirmation {
          AdvanceMoves(w.hearing);
        }
      case Skip =>
        if step.stepType != Confirmation {
          AdvanceMoves(w.hearing);
        }
      case Confirm =>
    }
  }

  lemma {:induction false} RunKeepsConsistent(w: WizardState, actions: seq<Action>)
    requires Consistent(w)
    ensures Consistent(RunActions(w, actions, true))
    decreases |actions|
  {
    if |actions| > 0 {
      ActKeepsConsistent(w, actions[0]);
      RunKeepsConsistent(Act(w, actions[0], true), actions[1..]);
    }
  }

  /**
   * With the selection reset on every change of step, whatever the user
   * clicks, the interests preference only ever lists interest options, each
   * once, and the session stays on the default path.
   */
  lemma InterestsHoldOnlyInterestOptions(id: string, startedAt: string, actions: seq<Action>)
    ensures InterestsWellFormed(RunActions(Start(id, startedAt), actions, true).hearing.session.preferences)
    ensures Reachable(RunActions(Start(id, startedAt), actions, true).hearing.session)
  {
    RunKeepsConsistent(Start(id, startedAt), actions);
  }

  /** A click on a single-select step records one value and moves one step along the path. */
  lemma PickAdvances(w: WizardState, i: nat, resetOnStepChange: bool)
    requires Reachable(w.hearing.session) && !w.hearing.processing
    requires w.hearing.session.currentStep !in {InterestsStep, ConfirmationStep}
    requires w.hearing.session.currentStep in Catalog
    requires Catalog[w.hearing.session.currentStep].options.Some?
    requires i < |Catalog[w.hearing.session.currentStep].options.value|
    ensures var w' := Act(w, Pick(i), resetOnStepChange);
      && Reachable(w'.hearing.session) && !w'.hearing.processing
      && |w'.hearing.session.completedSteps| == |w.hearing.session.completedSteps| + 1
      && w'.hearing.session.preferences.interests == w.hearing.session.preferences.interests
      && w'.view == (if resetOnStepChange then FreshView
                     else StepView([Catalog[w.hearing.session.currentStep].options.value[i].value], true))
      && w'.hearing.session.preferences == ApplyAnswer(w.hearing.session.preferences, w.hearing.session.currentStep,
                                                      [Catalog[w.hearing.session.currentStep].options.value[i].value])
  {
    var cur := w.hearing.session.currentStep;
    ConfirmationKind(cur);
    var step := Catalog[cur];
    var sel := SelectOption(step, w.view, step.options.value[i], false).value;
    var answered := w.hearing.(session := HandleAnswer(w.hearing.session, step.id, sel.answer));
    OnlyInterestsWritesInterests(w.hearing.session.preferences, cur, sel.answer);
    NextKeepsReachable(answered);
    AdvanceMoves(answered);
  }

  /**
   * The confirmation button starts processing and completes the session in
   * place, with the preferences as they stand.
   */
  lemma ConfirmCompletes(w: WizardState, resetOnStepChange: bool)
    requires Shown(w) == Some(ConfirmationDef)
    ensures var w' := Act(w, Confirm, resetOnStepChange);
      && w'.hearing.processing
      && w'.hearing.session.completed
      && w'.hearing.session.currentStep == ConfirmationStep
      && w'.hearing.session.preferences == w.hearing.session.preferences
      && w'.hearing.session.completedSteps == w.hearing.session.completedSteps
  {
    ShownStep(w);
  }

  /** A click on the interests step toggles the value in the preference and stays. */
  lemma PickOnInterests(w: WizardState, i: nat, resetOnStepChange: bool)
    requires !w.hearing.processing && w.hearing.session.currentStep == InterestsStep
    requires i < |InterestsDef.options.value|
    ensures Act(w, Pick(i), resetOnStepChange).hearing.session.preferences.interests
      == Some(Toggle(w.view.selected, InterestsDef.options.value[i].value))
  {
    CatalogKeys();
  }

  /** `n` picks of the first option. */
  function FirstPicks(n: nat): (actions: seq<Action>)
    ensures |actions| == n
  {
    if n == 0 then [] else [Pick(0)] + FirstPicks(n - 1)
  }

  /** The single-select steps before interests all offer options; the first transportation option is "train". */
  lemma OptionsBeforeInterests(k: nat)
    requires k < 5
    ensures DefaultPath[k] in Catalog && DefaultPath[k] !in {InterestsStep, ConfirmationStep}
    ensures Catalog[DefaultPath[k]].options.Some? && |Catalog[DefaultPath[k]].options.value| > 0
    ensures k == 4 ==> Catalog[DefaultPath[k]].options.value[0].value == "train"
  {
    CatalogKeys();
    PathIdsDistinct();
  }

  /** The value of the first option of the `k`-th step, one of the single-select steps before interests. */
  function FirstOptionValue(k: nat): string
    requires k < 5
  {
    OptionsBeforeInterests(k);
    Catalog[DefaultPath[k]].options.value[0].value
  }

  /** First-option picks from a step before interests walk the path one step per pick. */
  lemma {:induction false} RunFirstPicks(w: WizardState, n: nat, resetOnStepChange: bool)
    requires Reachable(w.hearing.session) && !w.hearing.processing
    requires |w.hearing.session.completedSteps| + n <= 5
    requires resetOnStepChange ==> w.view == FreshView
    ensures var w' := RunActions(w, FirstPicks(n), resetOnStepChange);
      && Reachable(w'.hearing.session) && !w'.hearing.processing
      && |w'.hearing.session.completedSteps| == |w.hearing.session.completedSteps| + n
      && w'.hearing.session.preferences.interests == w.hearing.session.preferences.interests
      && (resetOnStepChange ==> w'.view == FreshView)
    decreases n
  {
    if n > 0 {
      var w1 := Act(w, Pick(0), resetOnStepChange);
      FirstPickStep(w, resetOnStepChange);
      FirstPicksUnfold(w, n, resetOnStepChange);
      RunFirstPicks(w1, n - 1, resetOnStepChange);
    }
  }

  /** As written, after first-option picks the step component still shows the option picked last. */
  lemma {:induction false} FirstPicksView(w: WizardState, n: nat)
    requires Reachable(w.hearing.session) && !w.hearing.processing
    requires 0 < n && |w.hearing.session.completedSteps| + n <= 5
    ensures RunActions(w, FirstPicks(n), false).view
      == StepView([FirstOptionValue(|w.hearing.session.completedSteps| + n - 1)], true)
    decreases n
  {
    var w1 := Act(w, Pick(0), false);
    FirstPickStep(w, false);
    FirstPicksUnfold(w, n, false);
    if n == 1 {
      assert RunActions(w1, FirstPicks(0), false) == w1;
    } else {
      FirstPicksView(w1, n - 1);
    }
  }

  /** One first-option pick from a step before interests. */
  lemma FirstPickStep(w: WizardState, resetOnStepChange: bool)
    requires Reachable(w.hearing.session) && !w.hearing.processing
    requires |w.hearing.session.completedSteps| < 5
    requires resetOnStepChange ==> w.view == FreshView
    ensures var w1 := Act(w, Pick(0), resetOnStepChange);
      && Reachable(w1.hearing.session) && !w1.hearing.processing
      && |w1.hearing.session.completedSteps| == |w.hearing.session.completedSteps| + 1
      && w1.hearing.session.preferences.interests == w.hearing.session.preferences.interests
      && (resetOnStepChange ==> w1.view == FreshView)
      && (!resetOnStepChange ==> w1.view == StepView([FirstOptionValue(|w.hearing.session.completedSteps|)], true))
  {
    var k := |w.hearing.session.completedSteps|;
    OptionsBeforeInterests(k);
    assert w.hearing.session.currentStep == DefaultPath[k];
    PickAdvances(w, 0, resetOnStepChange);
  }

  lemma FirstPicksUnfold(w: WizardState, n: nat, resetOnStepChange: bool)
    requires n > 0
    ensures RunActions(w, FirstPicks(n), resetOnStepChange)
      == RunActions(Act(w, Pick(0), resetOnStepChange), FirstPicks(n - 1), resetOnStepChange)
  {
    assert FirstPicks(n)[0] == Pick(0) && FirstPicks(n)[1..] == FirstPicks(n - 1);
  }

  /**
   * From a fresh session, `n` first-option picks walk the first `n` steps of
   * the default path; four of them (welcome, budget, group_size, duration)
   * reach transportation.
   */
  lemma PicksFromStart(id: string, startedAt: string, n: nat, resetOnStepChange: bool)
    requires n <= 4
    ensures var w := RunActions(Start(id, startedAt), FirstPicks(n), resetOnStepChange);
      Reachable(w.hearing.session) && !w.hearing.processing && w.hearing.session.currentStep == DefaultPath[n]
      && (resetOnStepChange ==> w.view == FreshView)
    ensures DefaultPath[4] == TransportationStep
  {
    RunFirstPicks(Start(id, startedAt), n, resetOnStepChange);
  }

  lemma TransportationAndInterestsEntries()
    ensures Catalog[TransportationStep] == TransportationDef && Catalog[InterestsStep] == InterestsDef
    ensures TransportationStep !in {InterestsStep, ConfirmationStep}
    ensures DefaultPath[5] == InterestsStep
  {
  }

  /** No transportation value is an interest value. */
  lemma TransportationIsNoInterest(i: nat)
    requires i < |TransportationDef.options.value|
    ensures !IsInterestValue(TransportationDef.options.value[i].value)
  {
    var t := TransportationDef.options.value;
    assert t[0].value == "train" && t[1].value == "car" && t[2].value == "bus"
      && t[3].value == "plane" && t[4].value == "mixed" && t[5].value == "any";
  }

  /** A transportation pick leaves the wizard on interests with the selection shown. */
  lemma PickTransportation(w: WizardState, i: nat, resetOnStepChange: bool)
    requires Reachable(w.hearing.session) && !w.hearing.processing
    requires w.hearing.session.currentStep == TransportationStep
    requires i < |TransportationDef.options.value|
    ensures var w1 := Act(w, Pick(i), resetOnStepChange);
      && !w1.hearing.processing && w1.hearing.session.currentStep == InterestsStep
      && Reachable(w1.hearing.session)
      && w1.view.selected == (if resetOnStepChange then [] else [TransportationDef.options.value[i].value])
      && w1.view.hasAnswered == !resetOnStepChange
  {
    TransportationAndInterestsEntries();
    PickAdvances(w, i, resetOnStepChange);
  }

  /**
   * As written, picking transportation option `i` and then interest `j`
   * records both values as the interests answer: the transportation value
   * is still in the step's selection when interests is shown.
   */
  lemma StaleSelectionReachesInterests(w: WizardState, i: nat, j: nat)
    requires Reachable(w.hearing.session) && !w.hearing.processing
    requires w.hearing.session.currentStep == TransportationStep
    requires i < |TransportationDef.options.value| && j < |InterestsDef.options.value|
    ensures var w2 := ActAsWritten(ActAsWritten(w, Pick(i)), Pick(j));
      && w2.hearing.session.preferences.interests
         == Some([TransportationDef.options.value[i].value, InterestsDef.options.value[j].value])
      && !InterestsWellFormed(w2.hearing.session.preferences)
  {
    PickTransportation(w, i, false);
    var w1 := ActAsWritten(w, Pick(i));
    PickOnInterests(w1, j, false);
    var t := TransportationDef.options.value[i].value;
    var v := InterestsDef.options.value[j].value;
    TransportationIsNoInterest(i);
    assert IsInterestValue(v);
    assert Toggle([t], v) == [t, v];
    var w2 := ActAsWritten(w1, Pick(j));
    assert w2.hearing.session.preferences.interests.value[0] == t;
  }

  /** With the selection reset per step, the same two picks record just the interest. */
  lemma FreshSelectionOnInterests(w: WizardState, i: nat, j: nat)
    requires Reachable(w.hearing.session) && !w.hearing.processing
    requires w.hearing.session.currentStep == TransportationStep
    requires i < |TransportationDef.options.value| && j < |InterestsDef.options.value|
    ensures Act(Act(w, Pick(i), true), Pick(j), true).hearing.session.preferences.interests
      == Some([InterestsDef.options.value[j].value])
  {
    PickTransportation(w, i, true);
    var w1 := Act(w, Pick(i), true);
    PickOnInterests(w1, j, true);
    var v := InterestsDef.options.value[j].value;
    assert w1.view.selected == [];
    assert Toggle([], v) == [v];
  }

  /** Leaving interests by a shown "next" or "skip" lands on departure_location. */
  lemma LeaveInterests(w: WizardState, a: Action, resetOnStepChange: bool)
    requires Reachable(w.hearing.session) && !w.hearing.processing
    requires w.hearing.session.currentStep == InterestsStep
    requires (a.Proceed? && ProceedShown(InterestsDef, w.view)) || (a.Skip? && SkipShown(InterestsDef, w.view))
    ensures var w' := Act(w, a, resetOnStepChange);
      && Reachable(w'.hearing.session) && !w'.hearing.processing
      && w'.hearing.session.currentStep == DepartureStep
      && w'.view == (if resetOnStepChange then FreshView else w.view)
  {
    TransportationAndInterestsEntries();
    StepDefinitions();
    PathIdsDistinct();
    SuccessorRank(5);
    NextKeepsReachable(w.hearing);
  }

  /**
   * On departure_location, "next" is never shown; "skip" is shown and moves
   * to confirmation exactly when nothing was chosen on the step.
   */
  lemma DepartureControls(w: WizardState, resetOnStepChange: bool)
    requires Reachable(w.hearing.session) && !w.hearing.processing
    requires w.hearing.session.currentStep == DepartureStep
    ensures Act(w, Proceed, resetOnStepChange) == w
    ensures SkipShown(DepartureDef, w.view) <==> !w.view.hasAnswered
    ensures w.view.hasAnswered ==> Act(w, Skip, resetOnStepChange) == w
    ensures !w.view.hasAnswered ==>
      Act(w, Skip, resetOnStepChange).hearing.session.currentStep == ConfirmationStep
  {
    DepartureEntry();
    assert Shown(w) == Some(DepartureDef);
  }

  lemma DepartureEntry()
    ensures Catalog[DepartureStep] == DepartureDef
    ensures DepartureDef.id == DepartureStep && DepartureDef.stepType == Question && !DepartureDef.required
    ensures DepartureStep !in {InterestsStep, ConfirmationStep}
    ensures GetNextStep(DepartureStep, None) == Some(ConfirmationStep)
  {
    SuccessorRank(6);
  }

  /**
   * As written, after a transportation pick the step still counts as
   * answered: interests offers "next" but no "skip", and on the optional
   * departure_location step neither "skip" nor "next" does anything, so it
   * can only be left by choosing a departure point.
   */
  lemma StaleAnswerHidesDepartureSkip(w: WizardState, i: nat)
    requires Reachable(w.hearing.session) && !w.hearing.processing
    requires w.hearing.session.currentStep == TransportationStep
    requires i < |TransportationDef.options.value|
    ensures var w1 := ActAsWritten(w, Pick(i));
      && !SkipShown(InterestsDef, w1.view) && ProceedShown(InterestsDef, w1.view)
      && var w2 := ActAsWritten(w1, Proceed);
         && w2.hearing.session.currentStep == DepartureStep
         && !SkipShown(DepartureDef, w2.view)
         && ActAsWritten(w2, Skip) == w2 && ActAsWritten(w2, Proceed) == w2
  {
    PickTransportation(w, i, false);
    var w1 := ActAsWritten(w, Pick(i));
    LeaveInterests(w1, Proceed, false);
    DepartureControls(ActAsWritten(w1, Proceed), false);
  }

  /** With the selection reset per step, both optional steps can be skipped, reaching confirmation. */
  lemma FreshViewSkipsOptionalSteps(w: WizardState, i: nat)
    requires Reachable(w.hearing.session) && !w.hearing.processing
    requires w.hearing.session.currentStep == TransportationStep
    requires i < |TransportationDef.options.value|
    ensures var w1 := Act(w, Pick(i), true);
      && SkipShown(InterestsDef, w1.view)
      && var w2 := Act(w1, Skip, true);
         && w2.hearing.session.currentStep == DepartureStep
         && SkipShown(DepartureDef, w2.view)
         && Act(w2, Skip, true).hearing.session.currentStep == ConfirmationStep
  {
    PickTransportation(w, i, true);
    var w1 := Act(w, Pick(i), true);
    StepDefinitions();
    assert !InterestsDef.required;
    LeaveInterests(w1, Skip, true);
    DepartureControls(Act(w1, Skip, true), true);
  }
}

=== FILE: wrappers.dfy ===
/** The optional-value datatype the model uses for JavaScript's `undefined` and `null`. */
module Wrappers {

  /** `None` stands for an absent (undefined or null) value. */
  datatype Option<+T> = None | Some(value: T) {

    /** Returns the encapsulated value, or `default` when absent. */
    function GetOr(default: T): T {
      match this
      case Some(v) => v
      case None => default
    }
  }

  /** The first element of a list, as JavaScript's `xs[0]` reads it: undefined on an empty list. */
  function First<T>(xs: seq<T>): (r: Option<T>)
    ensures r.None? <==> |xs| == 0
    ensures r.Some? ==> r.value == xs[0]
  {
    if |xs| == 0 then None else Some(xs[0])
  }

  /** JavaScript truthiness of an optional string: defined and not the empty string. */
  predicate Truthy(s: Option<string>) {
    s.Some? && s.value != ""
  }
}
